=== FILE: README.md ===
# rudis: rooms, rounds and scoring, as a verified Dafny model

rudis is the game server behind Virtual Olympiad. Players create and join rooms. The host starts a timed round of contest problems drawn from AMC 8/10/12 and AIME archives. When the time runs out, or every player has submitted, the server scores the responses and writes the standings.

The server keeps all shared state in a realtime store. Every change goes through a transaction: a pure function from the record it reads to the record it writes. This project models those transactions as Dafny functions:

- **Rooms** (`rooms.dfy`): join, with its capacity guard; exit, with room deletion and host transfer; the host-only, lobby-only start.
- **Responses** (`responses.dfy`): the per-user response records, with reset, submit and disconnect.
- **Lifecycle** (`lifecycle.dfy`): the `game -> compiling-results -> lobby` flips, and the race between the round timer and the all-submitted check, in both server iterations.
- **Scoring** (`scoring.dfy`): `compileResults`, meaning judging, tallying, standings and ranking.
- **Selection** (`selection.dfy`): problem generation in `core.js`, `core.old.ts` and `core.ts`, meaning the Fisher–Yates shuffle, prefix draws, detail alignment, fetching with `null` on failure, and AIME `parseInt`.
- **Handlers** (`handlers.dfy`): the socket handlers of `index.ts` as sequences of those transactions over the whole store.
- **CreateRoom** (`create_room.dfy`): `createRoom` of the Supabase rewrite (`src/core/core.ts`), meaning schema validation and the guard order.

Supporting modules:

- **Js** (`js.dfy`): JavaScript values, truthiness, `===`, `includes`, `slice` and `parseInt`.
- **Assoc** (`assoc.dfy`): store objects as ordered entry lists, so "the first other member in iteration order" can be stated.
- **Sorting** (`sorting.dfy`): `Array.prototype.sort` as a stable insertion sort.
- **Settings** (`settings.dfy`): the `gameSettings` record.

Inputs the code reads from outside are parameters:

- the clock (`now`);
- `Math.random`, as an index oracle `pick`;
- the cached title pools;
- the answers of the problem libraries, as a `Services` record of functions;
- the database's answers in `createRoom`.

## Model

| member | source | states |
|---|---|---|
| `Rooms.NewRoom` | index.ts:270-288 | A new room is well formed and starts in `initializing-room`. The creator is its only member and host, and it has 8 places and 60 minutes. |
| `Rooms.OpenRoom` | index.ts:337-339 | The closing update of creation moves the room to `lobby` and changes nothing else. |
| `Rooms.Join` | index.ts:391-413 | The join succeeds iff the room exists, has members, and has fewer than `maxUsers` of them. A refusal leaves the record unchanged. A success maps the socket to the user, leaves every other member as it was, adds at most one entry, and never exceeds `maxUsers`. |
| `Rooms.JoinReport` | index.ts:415-428 | A refused join is reported as "does not exist" exactly when the room record is absent, and as "full" otherwise. |
| `Rooms.JoinPreservesWellFormed` | index.ts:403-410 | A join keeps a well-formed room well formed: distinct sockets, a member host, and no more than `maxUsers` members. |
| `Rooms.JoinFillsThenRefuses` | index.ts:403-406 | With one place left, the first of two new sockets gets in and the second is refused as "full". |
| `Rooms.ConcurrentJoinsFillRoom` | index.ts:389-428 | Any number of distinct new sockets joining a well-formed room, in whatever order the store serialises their transactions: the reports are `Rooms.Admissions(n, free)`, where `free` is `maxUsers` minus the member count, and the room stays well formed with `min(n, free)` more members. |
| `Rooms.AdmissionsSpelled` | index.ts:403-406 | Entry by entry, `Admissions(n, free)` reports the first `free` joiners as joined and every later one as refused for being full. |
| `Rooms.FirstOther` | index.ts:56-66 | Returns a member whose socket is not the leaver's, or none only when every entry is the leaver's. |
| `Rooms.Exit` | index.ts:33-73 | Exit is a no-op exactly when the room is absent or the socket is not a member. It deletes the room exactly when the leaver is the last member. Otherwise it removes only the leaver's entry, keeps every other field, and keeps the host when the leaver was not the host. |
| `Rooms.ExitTransfersHost` | index.ts:54-67 | A leaving host hands the room to the first other member in iteration order, under that member's own user id. |
| `Rooms.ExitPreservesWellFormed` | index.ts:48-72 | A room that survives an exit stays well formed, and it has exactly one member fewer. |
| `Rooms.Start` | index.ts:502-511 | The start succeeds iff the room exists, is in `lobby`, and the caller is the host's user. It then sets `starting-game` and changes nothing else; otherwise the record is unchanged. |
| `Rooms.StartAtMostOnce` | index.ts:504-509 | Of two start transactions applied one after the other, at most one succeeds. |
| `Rooms.StartLegacy` | index.js:372-387 | The index.js start is ignored without a room or settings. It is refused for a non-host. Otherwise it sets `starting-game`, whatever the current state. |
| `Rooms.LegacyStartIsUnguarded` | index.js:374-387 | In index.js a host can start a room that is already in `game`, and can start twice in a row. The index.ts guard refuses both. |
| `Responses.JoinResponses` | index.ts:433-445 | The join write leaves an absent responses object absent. Otherwise the joiner becomes `unsubmitted`, keeps any earlier answers, and every other record is unchanged. |
| `Responses.JoinResponsesLegacy` | index.js:321-326 | The index.js join write gives the joiner a fresh `unsubmitted` record without answers, and leaves every other record unchanged. |
| `Responses.ResetResponses` | index.ts:543-562 | The reset keeps the same users in the same order. Every `answers` becomes empty, `submitted` becomes `unsubmitted`, and `disconnect` is kept. |
| `Responses.ResetIdempotent` | index.ts:550-559 | Resetting twice is the same as resetting once. |
| `Responses.Submit` | index.ts:653-664 | Submit succeeds iff the record exists and is `unsubmitted`. It then becomes `submitted`, stamped with the current time; otherwise nothing changes. |
| `Responses.SubmitIdempotent` | index.ts:656-658 | A second submit, at any later time, changes nothing and reports no success. |
| `Responses.MarkDisconnected` | index.ts:89-98 | The leaver's record, when present, becomes `disconnect` with its answers kept. An absent record stays absent. |
| `Responses.MarkDisconnectedLegacy` | index.js:66-69 | The index.js update always leaves a `disconnect` record, keeping the answers of an existing one. |
| `Responses.SubmitHandler` | index.ts:643-684 | A submit is acknowledged iff the room is in `game` and the user's record is `unsubmitted`. Only that user's record changes. The round-ending check runs only after an acknowledged submit, and only when no record is still `unsubmitted`. |
| `Responses.RepeatedSubmitIsNoOp` | index.ts:652-666 | A repeated submit changes nothing and does not re-run the all-submitted check. |
| `Responses.LastSubmitTriesToEnd` | index.ts:666-684 | When every other user is done, the last outstanding submit is the one that tries to end the round. |
| `Lifecycle.BeginCompiling` | index.ts:611-620 | The `compiling-results` flip succeeds exactly from `game`, and otherwise leaves the state unchanged. The all-submitted path runs the same transform (index.ts:686-695). |
| `Lifecycle.FinishCompiling` | index.ts:201-207 | The closing flip turns `compiling-results` into `lobby` and leaves every other value alone. |
| `Lifecycle.EnterGame` | index.ts:597-605 | Any existing room becomes `game`; an absent one stays absent. |
| `Lifecycle.BeginCompilingOnTimerLegacy` | index.js:431-439 | The index.js timer sets `compiling-results` on any existing room, whatever its state. |
| `Lifecycle.BeginCompilingOnSubmitLegacy` | index.js:495-501 | The index.js all-submitted write sets `compiling-results` on any existing room. |
| `Lifecycle.FinishCompilingLegacy` | index.js:144-146 | The index.js close writes `lobby` unconditionally. |
| `Lifecycle.Step` | index.ts:685-701 | Each race step starts compileResults at most once. |
| `Lifecycle.CurrentNeverReopens` | index.ts:611-620 | Under index.ts, once a round has been compiled, no sequence of triggers and closing writes puts it back in `game` or compiles it again. |
| `Lifecycle.CurrentCompilesAtMostOnce` | index.ts:697-701 | Under index.ts, the timer and the all-submitted check, in any order and interleaved with closing writes, start compileResults at most once. |
| `Lifecycle.RunIsMonotone` | index.ts:685-701 | Running more steps never lowers the number of compilations. |
| `Lifecycle.CurrentCompilesExactlyOnce` | index.ts:609-626 | From `game`, any schedule in which some trigger fires compiles the round exactly once. |
| `Lifecycle.LegacyCompilesTwice` | index.js:494-504 | Under index.js, the timer and the all-submitted check both compile the same round, in either order, with or without the close in between. |
| `Lifecycle.CurrentCompilesOnceOnLegacySchedules` | index.ts:685-701 | The same three schedules compile once under index.ts. |
| `Settings.DefaultSettings` | index.ts:303-332 | The initial settings select the four contests with one problem each. AMC problems score 6 correct and 1.5 blank; AIME problems score 10 and 0. |
| `Sorting.Sort` | index.ts:185-190 | The result is sorted by the comparator, has the same length, and is a permutation of the input. |
| `Sorting.SortIsStable` | index.ts:185-190 | Elements the comparator ties keep their input order. |
| `Sorting.InsertPermutes` | index.ts:185-190 | Inserting an element adds exactly that element. |
| `Sorting.InsertSorted` | index.ts:185-190 | Inserting into a sorted list keeps it sorted. |
| `Sorting.InsertKeepsTies` | index.ts:185-190 | The inserted element goes ahead of the elements it ties with, and every class of tied elements otherwise keeps its order. |
| `Sorting.SortedUnique` | index.ts:185-190 | Under a reflexive order in which no two distinct elements tie, two sorted permutations of the same elements are equal. |
| `Js.SlicePrefix` | core.js:22 | `slice(0, n)` is a prefix of the list. It is `n` long when `n` fits, the whole list when `n` is too large, and shortened from the back when `n` is negative. |
| `Js.ParseIntDecimal` | core.js:51 | `parseInt` of a number's decimal text gives that number. |
| `Js.ParseIntLeadingZero` | core.js:51 | `parseInt("042")` is 42. |
| `Js.ParseIntStopsAtJunk` | core.js:47 | `parseInt(" -7x")` is -7: leading space is skipped and trailing junk is ignored. |
| `Js.ParseIntNoDigits` | core.js:51 | Text without a decimal digit parses to NaN, whatever leading space or sign it has. |
| `Selection.Swap` | core.js:7-9 | Exchanges the elements at two positions and leaves every other position unchanged. |
| `Selection.Draw` | core.js:6 | The drawn index at step `i` lies in `[0, i]`. |
| `Selection.ShuffledAbove` | core.js:5-10 | The loop's steps from the last index down to `i + 1` keep the array's length. |
| `Selection.ShuffledAbovePermutes` | core.js:5-10 | Those steps permute the array, whatever indices the oracle picks. |
| `Selection.Shuffle` | core.js:4-11 | `randomArray` keeps the array's length; `Selection.ShufflePermutes` proves the result a permutation. |
| `Selection.ShufflePermutes` | core.js:4-11 | The whole shuffle is a permutation of its input. |
| `Selection.RandomArray` | core.js:4-11 | The in-place loop computes the functional shuffle, which is a permutation of its input. The same loop appears at core.ts:5-12 and core.old.ts:5-12. |
| `Selection.SelectFrom` | core.js:15-29 | Selection yields one batch per selected contest, in entry order. Each batch's contest has a pool and settings, and the batch records its `problemCount`. It draws a sub-multiset of its pool, `problemCount` titles long (or the whole pool when that is shorter). |
| `Selection.SelectFailsIffUnconfigured` | core.js:15-20 | Selection throws exactly when some selected contest has no cached pool or no settings. |
| `Selection.SelectFailsIff` | core.js:12-20 | Generation's selection throws exactly when the selection is empty (an empty object is absent in the store, and `Object.entries` of it throws) or some selected contest has no cached pool or no settings. Only an empty selection gives `NoSelection`. |
| `Selection.DetailsAlign` | core.js:22-28 | When every batch is full, the `i`-th detail entry names the contest of the `i`-th drawn title, with answer type `aime` exactly for AIME. |
| `Selection.SelectDrawsPrefixes` | core.js:20-22 | A selected contest draws a prefix of a shuffled copy of its pool; the copy is a permutation of the pool. |
| `Selection.UnselectedContributesNothing` | core.js:16-18 | A contest whose flag is false contributes nothing. |
| `Selection.ShortPoolMisaligns` | core.js:22-32 | When a pool is shorter than its count, a later contest's title is described by an earlier contest's detail entry. |
| `Selection.ConvertAnswer` | core.js:43-53 | AIME answers go through `parseInt`, element by element for lists. AMC answers keep their text. |
| `Selection.AimeAnswerIsNumber` | core.js:44-52 | An AIME answer published as decimal text is stored as that number. |
| `Selection.Resolve` | core.js:31-84 | A fetched problem is null unless its detail entry exists, its page resolves to non-empty text, and its answer resolves to a truthy value. A successful one carries the detail's contest and answer type, the parsed metadata, `"<year> <contestName> #<index>"`, the converted answer, the estimated difficulty and the rendered text. |
| `Selection.GenerateProblems` | core.js:12-85 | Generation fails exactly when selection fails; in particular an empty (in the store, absent) contest selection throws `NoSelection`. Otherwise it returns one entry per drawn title, in order, each entry being that title fetched with the detail entry at its index. |
| `Selection.GeneratedProblemsAreAligned` | core.js:31-32 | When every pool holds at least its count, every fetched problem carries the contest and answer type of the contest its title came from. |
| `Selection.ResolvePlain` | core.ts:42-61 | In core.ts a title whose page fails or is empty gives null. A resolved page with no detail entry throws. Otherwise the entry takes its answer type, difficulty and title from the detail at its index. |
| `Selection.ResolveAllPlain` | core.ts:42-62 | On success there is one entry per remaining title, each resolved with its own index's detail. |
| `Selection.GenerateProblemsPlain` | core.ts:14-63 | The core.ts generator fails when selection fails. On success it gives one entry per drawn title, null exactly where the page failed or was empty. |
| `Selection.SelectFromFits` | core.ts:22-33 | With no negative `problemCount`, a successful selection pushes at least as many detail entries as it draws titles. |
| `Selection.DrawnFitsDetails` | core.ts:26-33 | Batches drawing no more titles than their count push at least one detail entry per drawn title. |
| `Selection.PlainGenerationFailsOnlyInSelection` | core.ts:18-50 | With no negative counts, the core.ts generator succeeds iff selection succeeds. |
| `Selection.DetailsContests` | core.js:23-28 | Every detail entry names a contest that has settings. |
| `Scoring.Judge` | index.ts:163-178 | A response is blank iff it is `null`/`undefined`, `false`, NaN or `""` (0 is not blank). Against a single answer a non-blank response is correct iff it is identical to the answer and not NaN. Against a list it is correct iff some element matches it under `includes`. |
| `Scoring.TextDoesNotMatchNumber` | index.ts:170-174 | `"5"` does not answer 5. |
| `Scoring.ZeroIsAnAnswer` | index.ts:163 | A response of 0 is judged, not counted blank. |
| `Scoring.TallyOf` | index.ts:158-179 | A user's correct and blank counts together never exceed the number of problems. |
| `Scoring.TimesIsProduct` | index.ts:166-176 | Adding a score `n` times gives `n` times the score. |
| `Scoring.UniformScore` | index.ts:158-179 | When all problems share one scoring, the score is correct × correctScore + blank × blankScore. |
| `Scoring.NoAnswersAllBlank` | index.ts:163-168 | A user with no answers has every problem blank and none correct. |
| `Scoring.ExactAnswersAllCorrect` | index.ts:170-177 | Answering every problem with exactly its answer scores every problem correct. |
| `Scoring.TallyIgnoresLaterAnswers` | index.ts:158-159 | Answers past the last problem do not affect the tally. |
| `Scoring.WorkedExample` | index.ts:158-179 | Answers 7, [2, 3] and "5" (AIME, AIME, AMC 8) against responses 7, 2 and nothing give 2 correct, 1 blank and 21.5 points under the default scores. |
| `Scoring.WorkedExampleAmc` | index.ts:158-179 | The same answers set as AMC 8, AMC 10 and AMC 12 problems (6 for correct, 1.5 for blank), against 7, 2 and `null`, give 2 correct, 1 blank and 13.5 points. |
| `Scoring.Retire` | index.ts:141-146 | A user who never submitted gets the round's end as finish time. A submitted or departed user's record is kept, and answers always are. |
| `Scoring.ScoreUser` | index.ts:136-181 | Scoring a user fails iff a problem's contest has no scores, or (as written) the user has no answers list while there are problems. Otherwise it gives that user's standing: its correct, blank and score are the tally of the user's answers against the solutions, and its time used is the finish time minus the start (the full limit for a user who never submitted). |
| `Scoring.ScoreAll` | index.ts:135-182 | The loop fails iff some user still in the round cannot be scored. Otherwise it keeps the users in order, retires everyone still in the round, and produces one standing per such user, in iteration order. |
| `Scoring.RetiredAreDone` | index.ts:135-146 | After a successful scoring loop, no record is left `unsubmitted`. |
| `Scoring.RankedAreScored` | index.ts:148-190 | After ranking, every standing is still the score of some user in the round. |
| `Scoring.ScoreAllScores` | index.ts:148-181 | Every standing the loop produces is the score of one user still in the round. |
| `Scoring.AheadMeansRanked` | index.ts:185-190 | The comparator puts a first iff a has the higher score, or an equal score and no more time used. |
| `Scoring.AheadIsTotalPreorder` | index.ts:185-190 | The comparator is total and transitive, so the sort is well defined. |
| `Scoring.Rank` | index.ts:185-190 | Standings are a permutation sorted by score descending, then time used ascending. |
| `Scoring.RankIsStable` | index.ts:185-190 | Users tied on score and time keep their iteration order. |
| `Scoring.FasterRanksFirst` | index.ts:186-187 | With equal scores, the faster user ranks first. |
| `Scoring.Compile` | index.ts:107-197 | compileResults returns early without contest data. It declines without game data, solutions or responses, and throws exactly when some user cannot be scored. Otherwise it keeps the round data and solutions and records the end reason. Every user ends done. The standings are exactly the active users, each with their own score, ranked; with no active user the written list is empty, so `standings` stays absent. |
| `Scoring.MidRoundJoinThrows` | index.ts:158-159 | A user who joined mid-round and has no answers list makes compileResults throw (Finding 2, as written). |
| `Scoring.JoinerThrows` | index.ts:158-159 | The joiner's record, which has no answers list, makes the scoring loop as written throw when there are problems. |
| `Scoring.CorrectedReadingOnlyThrowsOnMissingData` | index.ts:158-161 | Reading a missing list as empty, scoring throws only when the round data or a contest's scores are missing for an active user. |
| `Scoring.MidRoundJoinCompiled` | index.ts:158-168 | Under the corrected reading the same round compiles, and the joiner scores every problem blank with the full time used. |
| `Scoring.JoinerScored` | index.ts:158-161 | Under the corrected reading, a join never makes the scoring loop throw while the round data and every contest's scores are present. |
| `Scoring.JoinerAllBlank` | index.ts:141-168 | Under the corrected reading, a record without answers scores every problem blank, with the full time limit used. |
| `Handlers.CreateHandler` | index.ts:247-345 | Creation is refused, with nothing written, exactly when the user already has an `authUsers` record. Otherwise it writes a well-formed `lobby` room hosted by the creator, the creator's unsubmitted empty record in game data with no results and no round data, the `authUsers` record and the default settings. No other room's game data changes. |
| `Handlers.CreatedRoomIsUsable` | index.ts:270-339 | A freshly created room can be started by its creator and joined by another socket. |
| `Handlers.JoinWrite` | index.ts:433-445 | index.ts updates only existing game data. index.js always leaves the joiner a fresh unsubmitted record. |
| `Handlers.JoinHandler` | index.ts:368-456 | A user with an `authUsers` record is refused. A refused room transaction is reported with its reason. The store changes only on success, which adds the member, sets the `authUsers` record and applies the responses write to that room alone. |
| `Handlers.JoinOnlyOnce` | index.ts:375-385 | After a successful join, any further join by the same user is refused without effect. |
| `Handlers.ExitWrite` | index.ts:88-100 | The leaver's record is marked `disconnect` (index.ts: only when present) and every other record is unchanged. |
| `Handlers.ExitHandler` | index.ts:25-105 | Exit runs the room transaction. Deleting the room removes its game data, settings and the `authUsers` record. A leave updates the room, marks the leaver and removes the `authUsers` record, leaving other rooms' game data alone. Otherwise the store is unchanged. |
| `Handlers.LastExitRemovesRoom` | index.ts:79-86 | The last member leaving removes every record of the room and frees the user. |
| `Handlers.LeaverCountsAsDone` | index.ts:89-98 | A leaver's response is marked disconnected, which counts as done: once everyone else is done, the all-submitted check of a later submission passes (the exit handler itself runs no such check). |
| `Handlers.EasierIsTotalPreorder` | index.ts:531-533 | The difficulty comparator is total and transitive. |
| `Handlers.ByDifficulty` | index.ts:531-533 | Problems without failures are sorted easiest first, as a permutation. |
| `Handlers.ByDifficultyIsStable` | index.ts:531-533 | Problems of equal difficulty keep their generated order. |
| `Handlers.OrderProblems` | index.ts:531-541 | As written, ordering fails iff some fetch failed. With failures dropped, the result is exactly the fetched problems, as a permutation, sorted by difficulty. |
| `Handlers.OneFailureOfFive` | index.ts:531-539 | One failed fetch out of five aborts as written; dropping it leaves four problems. |
| `Handlers.Publish` | index.ts:576-591 | The problems players see carry only the rendered text and answer type, in order. |
| `Handlers.SolutionsOf` | index.ts:569-571 | The stored solutions are each problem's contest and answer, in order. |
| `Handlers.StartRound` | index.ts:499-605 | Nothing happens iff the start transaction declines. It stays `starting-game` iff generation or ordering throws. Otherwise the room is in `game`, the solutions and round data (start time, minutes × 60000) are written, and responses are reset. The solutions are written as `results`; with no resolved problem the written object is empty, so `results` stays absent. |
| `Handlers.RoundResults` | index.ts:569-592 | The round's `results` are absent exactly when no problem resolved (the store keeps no empty object); otherwise they hold one solution per problem and no standings yet. |
| `Handlers.EmptySelectionStrandsRoom` | index.ts:501-529 | A start with an empty contest selection commits `starting-game`, then generation throws, so the room is stuck there: no start or timer transaction accepts it. |
| `Handlers.FailedFetchStrandsRoom` | index.ts:531-539 | As written, one failed fetch leaves the room in `starting-game`, which no start, timer or submit accepts (Finding 1). |
| `Handlers.DroppedFailuresStartRound` | index.ts:529-533 | Dropping failures, the same start runs the round with exactly the resolved problems. |
| `Handlers.EndRound` | index.ts:611-623 | A trigger does nothing unless the room is in `game`. After compileResults, the room returns to `lobby` iff the results were written, and otherwise stays in `compiling-results`. |
| `Handlers.MidRoundJoinStrandsRoom` | index.ts:199-207 | As written, a mid-round joiner who answers nothing leaves the room in `compiling-results` for good (Finding 2). |
| `Handlers.MidRoundJoinEndsInLobby` | index.ts:199-207 | With the corrected reading, the same round ends in `lobby`. |
| `Handlers.StartedRoundEnds` | index.ts:609-626 | A round started with failures dropped, in a room with responses, and ended with the corrected reading returns to the lobby exactly when at least one problem resolved. With none, `results` is absent, so compiling declines and the room stays in `compiling-results`. |
| `Handlers.StartedRoundConfigured` | index.ts:528-571 | A host's start from the lobby, with failures dropped and generation succeeding, runs the round. Every stored solution's contest has scores. |
| `Handlers.ProblemContestsSelected` | core.js:19-32 | Every fetched problem belongs to a contest that has settings, so scoring can read its scores. |
| `CreateRoom.Utf16Length` | src/core/core.ts:10-11 | A string's length in UTF-16 units is at least its character count, and equal to it for text within the Basic Multilingual Plane. |
| `CreateRoom.CreateRoom` | src/core/core.ts:16-68 | A linked user gets `coreError` first; invalid input gets `inputError`; neither inserts anything. Success (emit the code, return true) happens iff every insert succeeds, with the room row hosted by the user and listing them as the only player. Any database error returns false after attempting the room insert; `inserts` lists the attempted inserts in order, including the one that failed. |
| `CreateRoom.LinkedUserRefusedFirst` | src/core/core.ts:17-21 | A linked user is refused whatever the payload, with nothing inserted. |
| `CreateRoom.FailedLinkLeavesRoom` | src/core/core.ts:32-61 | A failed link insert leaves the room and room-data rows behind. |
| `CreateRoom.TitleBounds` | src/core/core.ts:10 | An empty title is refused, 20 characters pass and 21 do not. |
| `CreateRoom.AstralTitleBounds` | src/core/core.ts:10 | Ten characters outside the Basic Multilingual Plane pass (20 units) and eleven do not. |
| `CreateRoom.OtherFieldsChecked` | src/core/core.ts:7-14 | Only mode `standard` is accepted, `isPrivate` must be a boolean, and a non-object payload is refused. |

## Source variants

The same members model the other iterations where their code agrees:

- **index.js joins, exits, submits and scores.** Its join transaction (index.js:285-305), exit transaction (index.js:21-51), submit transaction (index.js:468-478) and compileResults transaction (index.js:87-143) are the index.ts ones. So `Rooms.Join`, `Rooms.Exit`, `Responses.Submit` and `Scoring.Compile` model them. Where the two differ, the `Legacy` variant and the `Server` parameter of `Handlers.JoinWrite` and `Handlers.ExitWrite` carry the difference.
- **index.js creation.** It writes `lobby` at once (index.js:195) instead of passing through `initializing-room`. `Handlers.CreateHandler` ends in the same state.
- **index.js start.** After `Rooms.StartLegacy`, it logs and then sorts the generated list (index.js:390-395). The log line also throws on a null entry, so `Handlers.OrderProblems` models it too.
- **core.old.ts.** It is core.js with `Number(...)` around the parsed year and index before calling the libraries (core.old.ts:45, 76). Since the libraries are parameters, `Selection.Resolve` and `Selection.GenerateProblems` model both files (core.old.ts:14-113).
- **core.ts.** It reads the selection counts from a `contestDetails` field. The model passes that field as the settings' contest data.

## Left out

- Transport: socket.io, CORS, `socket.join`, the broadcasts and log lines. The handlers loop over every room a socket is in (index.ts:465-485); the model exits one room at a time.
- Token verification: each handler is modelled after authentication, with the user id as a parameter. The create handler's `!uid` branch emits an error but carries on (index.ts:240-245); it is not modelled.
- `authTransacting` (index.ts:248-252, 369-373): process-local flags that only drop concurrent requests from one user.
- Timers and `Date.now`. `clearTimeout` and the timer are the race events of `Lifecycle`, and the clock is the parameter `now`.
- Writes that follow a transaction under `Promise.allSettled` are taken to succeed. In the model they happen in the order the code lists them, not interleaved with other requests.
- The uniformity of `Math.random`: the shuffle is proved a permutation for every index oracle.
- The external libraries (`parseTitle`, `parseWikiProblem`, `fetchProblemAnswer`, `estimateDifficulty`, KaTeX rendering and DOMPurify) are uninterpreted functions that do not throw. A fetched problem keeps only the fields the server reads. The spread page fields (`pageTitle`, `link`, `category`) are not modelled.
- `fetchProblemAnswer` results are text or lists of text. Numeric raw answers are not modelled.
- Scores are `real`: the IEEE rounding of sums such as 1.5 + 1.5 is not modelled.
- `parseInt` treats only ASCII white space as leading space. It does not model the sign of `-0` or other Unicode space characters.
- Record fields the server writes but never reads are left out of the datatypes: `teamsEnabled`, `problems: []`, the responses' `socketId`, and the `authUsers` record beyond its room and socket.
- Room records always carry `maxUsers` and `host`, as every record the server creates does. The join guard's `maxUsers == null` branch is therefore not modelled.
- Key order: the realtime store hands back a node's children sorted by key, while `Assoc.Put` keeps insertion order, so the model carries the written order from one handler to the next. Three results notice. The heir chosen by `Rooms.Exit` is the first other member in key order, not in join order. The `contestSelection` that `Settings.DefaultSettings` writes as amc8, amc10, amc12, aime reads back as aime, amc10, amc12, amc8, which orders problems of equal difficulty differently after the stable sort. `Scoring.ScoreAll` scores users in entry order and `Scoring.RankIsStable` keeps users tied on score and time in that order, so the model ranks such ties in join order, while index.ts:135 walks `responses` in key order before the stable sort at index.ts:185-190. The lemmas about these (`Rooms.ExitTransfersHost`, `Selection.SelectFrom`, `Handlers.ByDifficultyIsStable`, `Scoring.RankIsStable`) are stated for any entry order, so they hold for the order the store presents. Re-sorting every object by key on each read would need JavaScript's key order (integer-like keys first) threaded through every handler, so it is not modelled.
- The store drops empty objects and arrays. The model follows this for `responses` (an empty map is an absent one) for the round's `results` (no resolved problem leaves them absent), for an empty `contestSelection` (generation throws `NoSelection`) and for the standings of a round nobody is still in (`standings` stays absent), but keeps an `answers: []` written by the reset as an empty list. Under the store's behaviour that list reads back as absent, so the scoring failure of Finding 2 reaches any user who answered nothing.
- Clients write their answers straight into the store. The server never does, so answers are whatever the record holds.
- index.js writes `results` and `data` with `set`, which creates the game data when it is absent (index.js:413-426). `Handlers.StartRound` models the index.ts transaction, which leaves absent game data absent.
- `src/index.ts` imports a `joinRoom` that src/core/core.ts does not define. Only `createRoom` is modelled from the rewrite. `authorize` and `getProfile` are I/O.
- functions/src/index.js (account documents) and firebase.js (store clients) are I/O and are not part of this model.
- Scoring.UniformScore: the products are written as repeated sums (`Times`). `Scoring.TimesIsProduct` proves each equals the product.
- Scoring.TallyOf: its own contract only bounds the counts. The per-problem verdicts are stated by `Scoring.Judge`, and the totals by `Scoring.NoAnswersAllBlank`, `Scoring.ExactAnswersAllCorrect`, `Scoring.UniformScore` and the worked examples.
- Scoring.Compile: it states which users receive standings and that each standing is that user's `ScoreUser` result. The per-user counts are stated by `Scoring.ScoreUser`, `Scoring.TallyOf` and the lemmas about them.

## Findings

| source | as written | input that shows it | evidently intended | confidence | as-written member | corrected member |
|---|---|---|---|---|---|---|
| index.ts:531-539 | `generateProblems` returns `null` for a failed fetch. The start handler sorts by `a.difficulty` and destructures `pageTitle` from every entry, so any `null` throws after the room was committed to `starting-game`. No transaction leaves `starting-game`, so the room is stuck. index.js:390-395 has the same failure. | Five problems requested and the third fetch failing: `[p1, p2, null, p3, p4]` | Failed fetches are skipped (or the start is rolled back), and the round runs with the problems that resolved | medium, not executed | `Handlers.FailedFetchStrandsRoom` | `Handlers.DroppedFailuresStartRound` |
| index.ts:158-159 | The join write (index.ts:438-442) gives a user joining mid-round a record with no `answers`. If that user answers nothing, `answers[i]` reads an index of `undefined` and compileResults throws. The results are never written and the room stays in `compiling-results`. | A room in `game` with problems, a user joining, the round then ending | A missing answers list counts every problem blank, and the round returns to `lobby` | medium, not executed | `Handlers.MidRoundJoinStrandsRoom` | `Handlers.MidRoundJoinEndsInLobby` |

=== FILE: assoc.dfy ===
/** A JavaScript object, as the list of its entries in key-iteration order
    (`for ... in`, `Object.keys`). Keys are distinct; assigning to a new key
    appends it, assigning to an existing key keeps its position, and assigning
    `null` removes the entry. The realtime store hands a node's children back
    sorted by key, so an object read back need not keep the order it was
    written in; the properties stated over entry lists hold for any order. */
module Assoc {
  import opened Js

  /** Keys of store objects are strings (socket ids, user ids). */
  type Key = string

  datatype Entry<V> = Entry(key: Key, val: V)

  /** The keys, in iteration order. */
  function Keys<V>(e: seq<Entry<V>>): (ks: seq<Key>)
    ensures |ks| == |e|
    ensures forall i :: 0 <= i < |e| ==> ks[i] == e[i].key
  {
    if e == [] then [] else [e[0].key] + Keys(e[1..])
  }

  predicate HasKey<V>(e: seq<Entry<V>>, k: Key) {
    k in Keys(e)
  }

  /** No key occurs twice: the list is a faithful picture of an object. */
  predicate DistinctKeys<V>(e: seq<Entry<V>>) {
    e == [] || (e[0].key !in Keys(e[1..]) && DistinctKeys(e[1..]))
  }

  /** `obj[k]`, or None when the key is absent. */
  function Get<V>(e: seq<Entry<V>>, k: Key): (r: Option<V>)
    ensures r.Some? <==> HasKey(e, k)
    ensures r.Some? ==> Entry(k, r.value) in e
  {
    if e == [] then None
    else if e[0].key == k then Some(e[0].val)
    else Get(e[1..], k)
  }

  /** `obj[k] = v`: overwrite in place, or append a new key at the end. */
  function Put<V>(e: seq<Entry<V>>, k: Key, v: V): (r: seq<Entry<V>>)
    ensures Keys(r) == if HasKey(e, k) then Keys(e) else Keys(e) + [k]
    ensures Get(r, k) == Some(v)
    ensures forall k' :: k' != k ==> Get(r, k') == Get(e, k')
    ensures DistinctKeys(e) ==> DistinctKeys(r)
  {
    PutKeys(e, k, v);
    PutGet(e, k, v);
    assert forall k' :: k' != k ==> Get(Assign(e, k, v), k') == Get(e, k') by {
      forall k' | k' != k ensures Get(Assign(e, k, v), k') == Get(e, k') {
        PutGetOther(e, k, v, k');
      }
    }
    PutDistinct(e, k, v);
    Assign(e, k, v)
  }

  /** The entry list after the assignment, walked from the front. */
  function Assign<V>(e: seq<Entry<V>>, k: Key, v: V): seq<Entry<V>> {
    if e == [] then [Entry(k, v)]
    else if e[0].key == k then [Entry(k, v)] + e[1..]
    else [e[0]] + Assign(e[1..], k, v)
  }

  /** The keys after an assignment: unchanged, or the new key appended. */
  lemma {:induction false} PutKeys<V>(e: seq<Entry<V>>, k: Key, v: V)
    ensures Keys(Assign(e, k, v)) == if HasKey(e, k) then Keys(e) else Keys(e) + [k]
  {
    if e != [] {
      var r := Assign(e, k, v);
      assert r[1..] == if e[0].key == k then e[1..] else Assign(e[1..], k, v);
      if e[0].key != k {
        PutKeys(e[1..], k, v);
        assert Keys(r) == [e[0].key] + Keys(r[1..]);
        assert Keys(e) == [e[0].key] + Keys(e[1..]);
      } else {
        assert Keys(r) == [k] + Keys(r[1..]);
        assert Keys(e) == [k] + Keys(e[1..]);
      }
    }
  }

  /** The assigned key reads back the assigned value. */
  lemma {:induction false} PutGet<V>(e: seq<Entry<V>>, k: Key, v: V)
    ensures Get(Assign(e, k, v), k) == Some(v)
  {
    if e != [] && e[0].key != k {
      PutGet(e[1..], k, v);
      assert Assign(e, k, v)[1..] == Assign(e[1..], k, v);
    }
  }

  /** Every other key reads as before. */
  lemma {:induction false} PutGetOther<V>(e: seq<Entry<V>>, k: Key, v: V, k': Key)
    requires k' != k
    ensures Get(Assign(e, k, v), k') == Get(e, k')
  {
    if e != [] {
      var r := Assign(e, k, v);
      if e[0].key == k {
        assert r[1..] == e[1..];
      } else {
        PutGetOther(e[1..], k, v, k');
        assert r[1..] == Assign(e[1..], k, v);
      }
    }
  }

  /** An assignment keeps the keys distinct. */
  lemma {:induction false} PutDistinct<V>(e: seq<Entry<V>>, k: Key, v: V)
    ensures DistinctKeys(e) ==> DistinctKeys(Assign(e, k, v))
  {
    if e != [] && DistinctKeys(e) {
      var r := Assign(e, k, v);
      if e[0].key == k {
        assert r[1..] == e[1..];
      } else {
        PutDistinct(e[1..], k, v);
        PutKeys(e[1..], k, v);
        assert r[1..] == Assign(e[1..], k, v);
      }
    }
  }

  /** `obj[k] = null`: the entry for `k` disappears and every other entry keeps its place. */
  function Remove<V>(e: seq<Entry<V>>, k: Key): (r: seq<Entry<V>>)
    ensures forall k' :: HasKey(r, k') <==> HasKey(e, k') && k' != k
    ensures forall k' :: k' != k ==> Get(r, k') == Get(e, k')
    ensures DistinctKeys(e) ==> DistinctKeys(r)
    ensures DistinctKeys(e) ==> |r| == if HasKey(e, k) then |e| - 1 else |e|
  {
    if e == [] then []
    else if e[0].key == k then
      var rest := Remove(e[1..], k);
      rest
    else
      var rest := Remove(e[1..], k);
      var r := [e[0]] + rest;
      assert r[1..] == rest;
      assert Keys(r) == [e[0].key] + Keys(rest);
      assert forall k' :: HasKey(r, k') <==> k' == e[0].key || HasKey(rest, k');
      assert forall k' :: HasKey(e, k') <==> k' == e[0].key || HasKey(e[1..], k');
      assert DistinctKeys(e) ==> !HasKey(rest, e[0].key);
      r
  }

  /** The values, in iteration order. */
  function Values<V>(e: seq<Entry<V>>): (vs: seq<V>)
    ensures |vs| == |e|
    ensures forall i :: 0 <= i < |e| ==> vs[i] == e[i].val
  {
    seq(|e|, i requires 0 <= i < |e| => e[i].val)
  }

  /** In a map with distinct keys, looking up an entry's key finds that entry. */
  lemma {:induction false} GetOfDistinct<V>(e: seq<Entry<V>>, i: int)
    requires DistinctKeys(e)
    requires 0 <= i < |e|
    ensures Get(e, e[i].key) == Some(e[i].val)
  {
    if i > 0 {
      assert e[1..][i - 1] == e[i];
      assert Keys(e[1..])[i - 1] == e[i].key;
      GetOfDistinct(e[1..], i - 1);
    }
  }
}

=== FILE: create_room.dfy ===
/** `createRoom` of the rewritten server (src/core/core.ts): a guard against a
    user who is already linked to a room, validation of the payload against
    the `zCreateRoomData` schema, and three inserts into the rooms, room data
    and user-room link tables, each of which can fail. The database answers are
    parameters. */
module CreateRoom {
  import opened Js

  const TitleMinLength: nat := 1
  const TitleMaxLength: nat := 20
  const DescriptionMaxLength: nat := 200

  /** The only mode the schema's enum admits. */
  const StandardMode: string := "standard"

  /** The payload as received: not an object at all, or an object whose four
      schema fields hold arbitrary values (extra fields are ignored). */
  datatype Payload = NotObject | Fields(title: Json, description: Json, mode: Json, isPrivate: Json)

  /** A string's `length`: UTF-16 code units, so a character outside the Basic
      Multilingual Plane counts twice. */
  function Utf16Length(s: string): (n: nat)
    ensures n >= |s|
    ensures (forall i :: 0 <= i < |s| ==> s[i] as int <= 0xFFFF) ==> n == |s|
  {
    if s == [] then 0 else (if s[0] as int > 0xFFFF then 2 else 1) + Utf16Length(s[1..])
  }

  /** `zCreateRoomData.parse(data)` succeeds. */
  predicate ValidCreateRoomData(p: Payload) {
    && p.Fields?
    && p.title.Str? && TitleMinLength <= Utf16Length(p.title.s) <= TitleMaxLength
    && p.description.Str? && Utf16Length(p.description.s) <= DescriptionMaxLength
    && p.mode == Str(StandardMode)
    && p.isPrivate.Bool?
  }

  /** What the handler emits: `error` events with the codes `coreError`,
      `inputError` or `supabaseError`, or `create-room:success` with the code. */
  datatype Emitted = CoreError | InputError | SupabaseError(message: string) | CreateSuccess(code: string)

  /** A row the handler asks the database to insert. */
  datatype Insert =
    | RoomRow(title: string, description: string, mode: string, host: string, isPrivate: bool, players: seq<string>)
    | DataRow(code: string)
    | LinkRow(userId: string, roomCode: string)

  /** The database's answers: the user's existing link row (None when there is
      none), the code the room insert returns (None when it errors), and
      whether the other two inserts succeed. */
  datatype Db = Db(existingLink: Option<string>, roomCode: Option<string>, dataInsertOk: bool, linkInsertOk: bool)

  /** What the handler emits and returns, and the inserts it attempts, in order
      (an attempted insert may itself be the one that fails). */
  datatype Outcome = Outcome(emitted: Emitted, returned: bool, inserts: seq<Insert>)

  /** `userRoomData?.room_code` is truthy. */
  predicate Linked(db: Db) {
    db.existingLink.Some? && db.existingLink.value != ""
  }

  function CreateRoom(userId: string, data: Payload, db: Db): (o: Outcome)
    ensures o.emitted == CoreError <==> Linked(db)
    ensures o.emitted == InputError <==> !Linked(db) && !ValidCreateRoomData(data)
    ensures o.emitted == CoreError || o.emitted == InputError ==> o.inserts == []
    ensures o.returned <==> o.emitted.CreateSuccess?
    ensures o.emitted.CreateSuccess? <==>
              && !Linked(db) && ValidCreateRoomData(data)
              && db.roomCode.Some? && db.roomCode.value != "" && db.dataInsertOk && db.linkInsertOk
    ensures o.emitted.CreateSuccess? ==>
              var code := o.emitted.code;
              && code == db.roomCode.value
              && o.inserts == [RoomRow(data.title.s, data.description.s, StandardMode, userId, data.isPrivate.b, [userId]),
                               DataRow(code), LinkRow(userId, code)]
    ensures o.emitted.SupabaseError? ==> 1 <= |o.inserts| <= 3 && o.inserts[0].RoomRow?
  {
    if Linked(db) then Outcome(CoreError, false, [])
    else if !ValidCreateRoomData(data) then Outcome(InputError, false, [])
    else
      var room := RoomRow(data.title.s, data.description.s, data.mode.s, userId, data.isPrivate.b, [userId]);
      if db.roomCode.None? || db.roomCode.value == "" then
        Outcome(SupabaseError("Error creating room."), false, [room])
      else
        var code := db.roomCode.value;
        if !db.dataInsertOk then
          Outcome(SupabaseError("Error creating room data."), false, [room, DataRow(code)])
        else if !db.linkInsertOk then
          Outcome(SupabaseError("Error adding User-Room link."), false, [room, DataRow(code), LinkRow(userId, code)])
        else
          Outcome(CreateSuccess(code), true, [room, DataRow(code), LinkRow(userId, code)])
  }

  /** The room guard comes first: a linked user is refused with `coreError`
      whatever the payload, and nothing is inserted. */
  lemma LinkedUserRefusedFirst(userId: string, data: Payload, db: Db)
    requires Linked(db)
    ensures CreateRoom(userId, data, db) == Outcome(CoreError, false, [])
  {
  }

  /** The creation is not atomic: when a later insert fails, the room row (and
      possibly its data row) stay behind without a link for the creator. */
  lemma FailedLinkLeavesRoom(userId: string, data: Payload, code: string)
    requires ValidCreateRoomData(data) && code != ""
    ensures var o := CreateRoom(userId, data, Db(None, Some(code), true, false));
            !o.returned && o.inserts[0].RoomRow? && o.inserts[1] == DataRow(code)
            && o.emitted == SupabaseError("Error adding User-Room link.")
  {
  }

  /** Title bounds: empty is refused, 20 characters pass, 21 do not. */
  lemma TitleBounds()
    ensures !ValidCreateRoomData(Fields(Str(""), Str(""), Str("standard"), Bool(false)))
    ensures ValidCreateRoomData(Fields(Str(Repeat('a', 20)), Str(""), Str("standard"), Bool(true)))
    ensures !ValidCreateRoomData(Fields(Str(Repeat('a', 21)), Str(""), Str("standard"), Bool(true)))
  {
    var s20, s21 := Repeat('a', 20), Repeat('a', 21);
    assert forall i :: 0 <= i < |s20| ==> s20[i] as int <= 0xFFFF;
    assert forall i :: 0 <= i < |s21| ==> s21[i] as int <= 0xFFFF;
  }

  /** A title of ten characters outside the BMP is 20 code units long and
      passes; eleven such characters do not. */
  lemma AstralTitleBounds()
    ensures ValidCreateRoomData(Fields(Str(Repeat('\U{1F600}', 10)), Str(""), Str("standard"), Bool(true)))
    ensures !ValidCreateRoomData(Fields(Str(Repeat('\U{1F600}', 11)), Str(""), Str("standard"), Bool(true)))
  {
    AstralLength('\U{1F600}', 10);
    AstralLength('\U{1F600}', 11);
  }

  /** Only `standard` is a mode, and `isPrivate` must be a boolean. */
  lemma OtherFieldsChecked()
    ensures !ValidCreateRoomData(Fields(Str("t"), Str(""), Str("guts"), Bool(false)))
    ensures !ValidCreateRoomData(Fields(Str("t"), Str(""), Str("standard"), Str("true")))
    ensures !ValidCreateRoomData(NotObject)
  {
  }

  function Repeat(c: char, n: nat): (s: string)
    ensures |s| == n && forall i :: 0 <= i < n ==> s[i] == c
  {
    if n == 0 then "" else [c] + Repeat(c, n - 1)
  }

  lemma {:induction false} AstralLength(c: char, n: nat)
    requires c as int > 0xFFFF
    ensures Utf16Length(Repeat(c, n)) == 2 * n
  {
    if n > 0 {
      AstralLength(c, n - 1);
      assert Repeat(c, n)[1..] == Repeat(c, n - 1);
    }
  }
}

=== FILE: handlers.dfy ===
/** The socket handlers of index.ts as whole operations on the store: the
    `rooms`, `gameData`, `gameSettings` and `authUsers` records of every room,
    and the sequence of transactions each handler runs. The per-record
    transforms come from Rooms, Responses, Lifecycle and Scoring; this module
    fixes their order and what each handler leaves behind when a step declines
    or throws. */
module Handlers {
  import opened Js
  import opened Assoc
  import opened Sorting
  import opened Settings
  import opened Rooms
  import opened Responses
  import opened Selection
  import opened Scoring
  import opened Lifecycle

  type RoomId = string

  /** `authUsers/<uid>`: the room a user is in and the socket that joined it. */
  datatype AuthUser = AuthUser(room: RoomId, socketId: SocketId)

  datatype Store = Store(
    rooms: map<RoomId, Room>,
    gameData: map<RoomId, GameData>,
    settings: map<RoomId, GameSettings>,
    authUsers: map<Uid, AuthUser>)

  function RoomAt(st: Store, code: RoomId): Option<Room> {
    if code in st.rooms then Some(st.rooms[code]) else None
  }

  // ---------------------------------------------------------------------------
  // create-room

  datatype CreateReply = CreateRefused | Created(roomId: RoomId)

  /** The create handler: refused when the user already has an `authUsers` record;
      otherwise the room (opened to `lobby`), its game data holding the
      creator's unsubmitted record, the user's `authUsers` record and the default settings
      are written under the freshly pushed id. */
  function CreateHandler(st: Store, sid: SocketId, uid: Uid, roomId: RoomId,
                         name: Json, description: Json, mode: Json, roomPublic: Json): (r: (Store, CreateReply))
    requires roomId !in st.rooms
    ensures r.1 == CreateRefused <==> uid in st.authUsers
    ensures r.1 == CreateRefused ==> r.0 == st
    ensures r.1.Created? ==> roomId in r.0.rooms && roomId in r.0.gameData
    ensures r.1.Created? && roomId in r.0.rooms && roomId in r.0.gameData ==>
              var room := r.0.rooms[roomId];
              && r.1.roomId == roomId
              && WellFormed(room) && room.gameState == Lobby
              && room.host == Host(sid, uid) && Keys(room.users) == [sid]
              && r.0.gameData[roomId].responses == [Entry(uid, Response(Unsubmitted, Some([])))]
              && r.0.gameData[roomId].results.None? && r.0.gameData[roomId].data.None?
              && r.0.gameData - {roomId} == st.gameData - {roomId}
              && r.0.authUsers == st.authUsers[uid := AuthUser(roomId, sid)]
              && r.0.settings == st.settings[roomId := DefaultSettings()]
              && r.0.rooms == st.rooms[roomId := room]
  {
    if uid in st.authUsers then (st, CreateRefused)
    else
      var room := OpenRoom(NewRoom(sid, uid, name, description, mode, roomPublic));
      var st' := Store(
        st.rooms[roomId := room],
        st.gameData[roomId := GameData(None, [Entry(uid, Response(Unsubmitted, Some([])))], None)],
        st.settings[roomId := DefaultSettings()],
        st.authUsers[uid := AuthUser(roomId, sid)]);
      (st', Created(roomId))
  }

  /** A freshly created room can be started by its creator and joined by
      another socket. */
  lemma CreatedRoomIsUsable(st: Store, sid: SocketId, uid: Uid, roomId: RoomId, other: SocketId, otherUid: Uid,
                            name: Json, description: Json, mode: Json, roomPublic: Json)
    requires roomId !in st.rooms && uid !in st.authUsers
    ensures var room := CreateHandler(st, sid, uid, roomId, name, description, mode, roomPublic).0.rooms[roomId];
            Start(Some(room), uid).ok && Join(Some(room), other, otherUid).ok
  {
  }

  // ---------------------------------------------------------------------------
  // join-room

  datatype JoinReply = AlreadyInRoom | Refused(error: JoinError) | Joined(state: GameState)

  /** The responses write that follows a successful join: index.ts only
      updates an existing responses object; index.js updates the path,
      creating the game data if there is none. */
  function JoinWrite(server: Server, g: Option<GameData>, uid: Uid): (g': Option<GameData>)
    ensures server == Current ==> (g.None? <==> g'.None?)
    ensures server == Legacy ==> g'.Some?
    ensures g'.Some? && server == Current ==> g'.value == g.value.(responses := JoinResponses(g.value.responses, uid))
    ensures g'.Some? && server == Legacy ==>
              Get(g'.value.responses, uid) == Some(Response(Unsubmitted, None))
  {
    match (server, g)
    case (Current, None) => None
    case (Current, Some(v)) => Some(v.(responses := JoinResponses(v.responses, uid)))
    case (Legacy, None) => Some(GameData(None, JoinResponsesLegacy([], uid), None))
    case (Legacy, Some(v)) => Some(v.(responses := JoinResponsesLegacy(v.responses, uid)))
  }

  function GameDataAt(st: Store, code: RoomId): Option<GameData> {
    if code in st.gameData then Some(st.gameData[code]) else None
  }

  /** Writing a room's game data, where writing nothing removes the node. Every
      other room's game data stays as it was. */
  function SetGameData(m: map<RoomId, GameData>, code: RoomId, g: Option<GameData>): (r: map<RoomId, GameData>)
    ensures (if code in r then Some(r[code]) else None) == g
    ensures r - {code} == m - {code}
  {
    if g.Some? then m[code := g.value] else m - {code}
  }

  /** The join handler: a user with an `authUsers` record is refused before anything is
      written; then the room transaction; and only after it succeeds, the
      responses write and the `authUsers` record. The reply carries the room's state. */
  function JoinHandler(st: Store, server: Server, sid: SocketId, uid: Uid, code: RoomId): (r: (Store, JoinReply))
    ensures r.1 == AlreadyInRoom <==> uid in st.authUsers
    ensures r.1.Refused? <==> uid !in st.authUsers && JoinReport(RoomAt(st, code), sid, uid).Some?
    ensures r.1.Refused? ==> r.1.error == JoinReport(RoomAt(st, code), sid, uid).value
    ensures !r.1.Joined? ==> r.0 == st
    ensures r.1.Joined? ==>
              && code in st.rooms && code in r.0.rooms
              && r.1.state == st.rooms[code].gameState
              && Get(r.0.rooms[code].users, sid) == Some(uid)
              && r.0.rooms == st.rooms[code := r.0.rooms[code]]
              && r.0.authUsers == st.authUsers[uid := AuthUser(code, sid)]
              && r.0.settings == st.settings
              && GameDataAt(r.0, code) == JoinWrite(server, GameDataAt(st, code), uid)
              && r.0.gameData - {code} == st.gameData - {code}
  {
    if uid in st.authUsers then (st, AlreadyInRoom)
    else
      var c := Join(RoomAt(st, code), sid, uid);
      if !c.ok then (st, Refused(JoinReport(RoomAt(st, code), sid, uid).value))
      else
        var room := c.value.value;
        var g := JoinWrite(server, GameDataAt(st, code), uid);
        (Store(st.rooms[code := room], SetGameData(st.gameData, code, g), st.settings, st.authUsers[uid := AuthUser(code, sid)]),
         Joined(room.gameState))
  }

  /** A user can be in at most one room: a second join, to any room, is refused
      without touching the store. */
  lemma JoinOnlyOnce(st: Store, server: Server, sid: SocketId, uid: Uid, code: RoomId, sid2: SocketId, code2: RoomId)
    ensures var first := JoinHandler(st, server, sid, uid, code);
            first.1.Joined? ==> JoinHandler(first.0, server, sid2, uid, code2) == (first.0, AlreadyInRoom)
  {
  }

  // ---------------------------------------------------------------------------
  // exit-room and disconnecting

  /** The leaver's responses write: index.ts marks an existing record only;
      index.js updates the path, creating the record (and game data). */
  function ExitWrite(server: Server, g: Option<GameData>, uid: Uid): (g': Option<GameData>)
    ensures server == Current ==> (g.None? <==> g'.None?)
    ensures server == Legacy ==> g'.Some?
    ensures g'.Some? ==> forall u :: u != uid ==> Get(g'.value.responses, u) == (if g.Some? then Get(g.value.responses, u) else None)
    ensures g'.Some? && server == Current ==>
              Get(g'.value.responses, uid) == MarkDisconnected(Get(g.value.responses, uid))
    ensures g'.Some? && server == Legacy ==>
              Get(g'.value.responses, uid).Some? && Get(g'.value.responses, uid).value.status == Disconnected
  {
    match (server, g)
    case (Current, None) => None
    case (Current, Some(v)) =>
      var prior := Get(v.responses, uid);
      if prior.None? then g else Some(v.(responses := Put(v.responses, uid, MarkDisconnected(prior).value)))
    case (Legacy, None) => Some(GameData(None, [Entry(uid, MarkDisconnectedLegacy(None))], None))
    case (Legacy, Some(v)) =>
      Some(v.(responses := Put(v.responses, uid, MarkDisconnectedLegacy(Get(v.responses, uid)))))
  }

  /** exitSocketRoom: the room transaction; when it removed the last member,
      the room's game data, settings and the user's `authUsers` record are removed too;
      otherwise the leaver's record is marked and the `authUsers` record removed. */
  function ExitHandler(st: Store, server: Server, sid: SocketId, code: RoomId): (r: (Store, ExitOutcome))
    ensures r.1 == Exit(RoomAt(st, code), sid).outcome
    ensures r.1.NotInRoom? ==> r.0 == st
    ensures r.1.RoomDeleted? ==>
              r.0 == Store(st.rooms - {code}, st.gameData - {code}, st.settings - {code}, st.authUsers - {r.1.uid})
    ensures r.1.Left? ==>
              && r.0.rooms == st.rooms[code := Exit(RoomAt(st, code), sid).value.value]
              && r.0.settings == st.settings
              && r.0.authUsers == st.authUsers - {r.1.uid}
              && GameDataAt(r.0, code) == ExitWrite(server, GameDataAt(st, code), r.1.uid)
              && r.0.gameData - {code} == st.gameData - {code}
  {
    var c := Exit(RoomAt(st, code), sid);
    match c.outcome
    case NotInRoom => (st, c.outcome)
    case RoomDeleted(uid) =>
      (Store(st.rooms - {code}, st.gameData - {code}, st.settings - {code}, st.authUsers - {uid}), c.outcome)
    case Left(uid) =>
      var g := ExitWrite(server, GameDataAt(st, code), uid);
      (Store(st.rooms[code := c.value.value], SetGameData(st.gameData, code, g), st.settings, st.authUsers - {uid}),
       c.outcome)
  }

  /** The last member leaving removes every record of the room and frees the
      user to join or create another. */
  lemma LastExitRemovesRoom(st: Store, server: Server, sid: SocketId, uid: Uid, code: RoomId)
    requires code in st.rooms && st.rooms[code].users == [Entry(sid, uid)]
    ensures var r := ExitHandler(st, server, sid, code);
            && r.1 == RoomDeleted(uid)
            && code !in r.0.rooms && code !in r.0.gameData && code !in r.0.settings
            && uid !in r.0.authUsers
  {
    assert Get(st.rooms[code].users, sid) == Some(uid);
  }

  /** A user leaving mid-round counts as done: once everyone else is done,
      the all-submitted check of the next submission passes. The exit handler
      itself runs no such check, so the round still ends only on a later
      submission or when the timer fires. */
  lemma {:induction false} LeaverCountsAsDone(rs: ResponseMap, uid: Uid)
    requires DistinctKeys(rs) && HasKey(rs, uid)
    requires forall i :: 0 <= i < |rs| && rs[i].key != uid ==> Done(rs[i].val)
    ensures var rs' := Put(rs, uid, MarkDisconnected(Get(rs, uid)).value);
            AllDone(rs')
  {
    var rs' := Put(rs, uid, MarkDisconnected(Get(rs, uid)).value);
    forall i | 0 <= i < |rs'| ensures Done(rs'[i].val) {
      var k := rs'[i].key;
      GetOfDistinct(rs', i);
      if k != uid {
        assert Get(rs, k) == Some(rs'[i].val);
        var j :| 0 <= j < |rs| && rs[j] == Entry(k, rs'[i].val);
      }
    }
  }

  // ---------------------------------------------------------------------------
  // start-game: ordering the generated problems

  /** The comparator `a.difficulty - b.difficulty`, read as "may come first". */
  predicate Easier(a: Problem, b: Problem) {
    a.difficulty - b.difficulty <= 0.0
  }

  lemma EasierIsTotalPreorder()
    ensures TotalPreorder(Easier)
  {
  }

  /** `problems.sort(...)` on a list without failures: easiest first, ties in
      generated order. */
  function ByDifficulty(ps: seq<Problem>): (r: seq<Problem>)
    ensures |r| == |ps| && multiset(r) == multiset(ps)
    ensures forall i, j :: 0 <= i < j < |r| ==> r[i].difficulty <= r[j].difficulty
  {
    EasierIsTotalPreorder();
    var r := Sort(ps, Easier);
    assert forall i, j :: 0 <= i < j < |r| ==> Easier(r[i], r[j]);
    r
  }

  /** Problems of equal difficulty keep their generated order. */
  lemma ByDifficultyIsStable(ps: seq<Problem>, c: Problem)
    ensures Ties(ByDifficulty(ps), c, Easier) == Ties(ps, c, Easier)
  {
    EasierIsTotalPreorder();
    SortIsStable(ps, c, Easier);
  }

  /** The number of failed fetches (null entries). */
  function Failures(ps: seq<Option<Problem>>): (n: nat)
    ensures n == 0 <==> forall i :: 0 <= i < |ps| ==> ps[i].Some?
    ensures n <= |ps|
  {
    if ps == [] then 0
    else
      assert forall i :: 1 <= i < |ps| ==> ps[i] == ps[1..][i - 1];
      (if ps[0].None? then 1 else 0) + Failures(ps[1..])
  }

  /** The fetched problems, in order, without the failures. */
  function Successes(ps: seq<Option<Problem>>): (r: seq<Problem>)
    ensures |r| == |ps| - Failures(ps)
    ensures forall p :: p in r <==> Some(p) in ps
  {
    if ps == [] then []
    else
      assert ps == [ps[0]] + ps[1..];
      (if ps[0].Some? then [ps[0].value] else []) + Successes(ps[1..])
  }

  /** How start-game treats a failed fetch. As written, the sort reads
      `difficulty` of null (with two or more entries) and the log line
      destructures it, so any null throws; the corrected start drops them. */
  datatype FailedFetches = Abort | Drop

  /** The problems the round is played with, or None when ordering throws. */
  function OrderProblems(ps: seq<Option<Problem>>, failures: FailedFetches): (r: Option<seq<Problem>>)
    ensures r.None? <==> failures == Abort && exists i :: 0 <= i < |ps| && ps[i].None?
    ensures r.Some? ==> |r.value| == |ps| - Failures(ps)
    ensures r.Some? ==> multiset(r.value) == multiset(Successes(ps))
    ensures r.Some? ==> forall p :: p in r.value <==> Some(p) in ps
    ensures r.Some? ==> forall i, j :: 0 <= i < j < |r.value| ==> r.value[i].difficulty <= r.value[j].difficulty
  {
    if failures == Abort && Failures(ps) > 0 then None
    else
      var r := ByDifficulty(Successes(ps));
      assert forall p :: p in r <==> p in multiset(r);
      Some(r)
  }

  /** Five problems requested, one fetch failing: as written the start throws;
      corrected, the round is played with the other four. */
  lemma OneFailureOfFive(a: Problem, b: Problem, c: Problem, d: Problem)
    ensures var ps := [Some(a), Some(b), None, Some(c), Some(d)];
            OrderProblems(ps, Abort).None? && |OrderProblems(ps, Drop).value| == 4
  {
    var ps := [Some(a), Some(b), None, Some(c), Some(d)];
    assert ps[2].None?;
    assert Failures(ps) == 1 by {
      assert ps[1..] == [Some(b), None, Some(c), Some(d)];
      assert ps[1..][1..] == [None, Some(c), Some(d)];
      assert ps[1..][1..][1..] == [Some(c), Some(d)];
      assert Failures([Some(c), Some(d)]) == 0;
      assert Failures([None, Some(c), Some(d)]) == 1;
      assert Failures([Some(b), None, Some(c), Some(d)]) == 1;
    }
  }

  // ---------------------------------------------------------------------------
  // start-game: the round record

  /** The entry of `data.problems` players see: the rendered text and answer
      type, never the answer. */
  datatype PublicProblem = PublicProblem(body: string, answerType: AnswerType)

  function Publish(ps: seq<Problem>): (r: seq<PublicProblem>)
    ensures |r| == |ps|
    ensures forall i :: 0 <= i < |ps| ==> r[i].body == ps[i].body && r[i].answerType == ps[i].answerType
  {
    seq(|ps|, i requires 0 <= i < |ps| => PublicProblem(ps[i].body, ps[i].answerType))
  }

  function SolutionsOf(ps: seq<Problem>): (r: seq<Solution>)
    ensures |r| == |ps|
    ensures forall i :: 0 <= i < |ps| ==> r[i] == Solution(ps[i].contest, ps[i].answer)
  {
    seq(|ps|, i requires 0 <= i < |ps| => Solution(ps[i].contest, ps[i].answer))
  }

  const MillisPerMinute: int := 60000

  datatype StartOutcome =
    | NotStarted                                     // the start transaction declined; nothing else ran
    | Stuck(room: Room)                              // threw after `starting-game` was committed
    | Running(room: Room, game: Option<GameData>, problems: seq<Problem>, public: seq<PublicProblem>)

  /** The generated list, or None when generation throws (no settings record,
      or a selection error). */
  function Generated(settings: Option<GameSettings>, pools: map<Contest, seq<Title>>, pick: (nat, nat) -> nat,
                     svc: Services): Option<seq<Option<Problem>>> {
    if settings.None? then None
    else match GenerateProblems(settings.value, pools, pick, svc)
      case Err(_) => None
      case Ok(ps) => Some(ps)
  }

  /** `value.results = { answers: problems }`. The store keeps no empty arrays
      or objects, so with no problems the write leaves `results` absent. */
  function RoundResults(problems: seq<Problem>): (r: Option<Results>)
    ensures r.None? <==> problems == []
    ensures r.Some? ==> r.value == Results(Some(SolutionsOf(problems)), None, None)
  {
    if problems == [] then None else Some(Results(Some(SolutionsOf(problems)), None, None))
  }

  /** The start handler of index.ts after the caller is authenticated: the
      guarded `lobby -> starting-game` transaction, generation and ordering,
      the responses reset, the results and round record, and `game`. */
  function StartRound(room: Option<Room>, uid: Uid, settings: Option<GameSettings>,
                      pools: map<Contest, seq<Title>>, pick: (nat, nat) -> nat, svc: Services,
                      game: Option<GameData>, now: int, failures: FailedFetches): (o: StartOutcome)
    ensures o.NotStarted? <==> !Start(room, uid).ok
    ensures o.Stuck? ==> o.room == room.value.(gameState := StartingGame)
    ensures o.Stuck? <==> (Start(room, uid).ok &&
              var ps := Generated(settings, pools, pick, svc);
              ps.None? || OrderProblems(ps.value, failures).None?)
    ensures o.Running? ==>
              var ps := Generated(settings, pools, pick, svc).value;
              && o.room == room.value.(gameState := Game)
              && o.problems == OrderProblems(ps, failures).value
              && o.public == Publish(o.problems)
              && (game.None? <==> o.game.None?)
    ensures o.Running? && o.game.Some? ==>
              var g := o.game.value;
              && g.results == (if o.problems == [] then None else Some(Results(Some(SolutionsOf(o.problems)), None, None)))
              && g.data == Some(RoundData(now, room.value.timeLimit * MillisPerMinute))
              && Keys(g.responses) == Keys(game.value.responses)
              && (forall i :: 0 <= i < |g.responses| ==> g.responses[i].val.answers == Some([]))
              && (forall i :: 0 <= i < |g.responses| ==>
                    g.responses[i].val.status == if game.value.responses[i].val.status.Disconnected? then Disconnected else Unsubmitted)
  {
    var c := Start(room, uid);
    if !c.ok then NotStarted
    else
      var starting := c.value.value;
      match Generated(settings, pools, pick, svc)
      case None => Stuck(starting)
      case Some(ps) =>
        match OrderProblems(ps, failures)
        case None => Stuck(starting)
        case Some(problems) =>
          var game' :=
            if game.None? then None
            else Some(game.value.(responses := ResetResponses(game.value.responses),
                                  results := RoundResults(problems),
                                  data := Some(RoundData(now, starting.timeLimit * MillisPerMinute))));
          Running(starting.(gameState := EnterGame(Some(starting.gameState)).value), game', problems, Publish(problems))
  }

  /** As written, one failed fetch strands the room: it stays in
      `starting-game`, which no start, timer or submit transaction accepts. */
  lemma FailedFetchStrandsRoom(room: Room, uid: Uid, settings: GameSettings, pools: map<Contest, seq<Title>>,
                               pick: (nat, nat) -> nat, svc: Services, game: Option<GameData>, now: int, k: nat)
    requires room.gameState == Lobby && room.host.userId == uid
    requires GenerateProblems(settings, pools, pick, svc).Ok?
    requires k < |GenerateProblems(settings, pools, pick, svc).value|
    requires GenerateProblems(settings, pools, pick, svc).value[k].None?
    ensures var o := StartRound(Some(room), uid, Some(settings), pools, pick, svc, game, now, Abort);
            && o.Stuck? && o.room.gameState == StartingGame
            && (forall u :: !Start(Some(o.room), u).ok)
            && !BeginCompiling(Some(o.room.gameState)).ok
            && FinishCompiling(Some(o.room.gameState)) == Some(StartingGame)
  {
  }

  /** An empty contest selection is absent in the store, so generation throws
      and the room is stranded in `starting-game` whatever the failure policy. */
  lemma EmptySelectionStrandsRoom(room: Room, uid: Uid, contestData: map<Contest, ContestData>,
                                  pools: map<Contest, seq<Title>>, pick: (nat, nat) -> nat, svc: Services,
                                  game: Option<GameData>, now: int, failures: FailedFetches)
    requires room.gameState == Lobby && room.host.userId == uid
    ensures var o := StartRound(Some(room), uid, Some(GameSettings([], contestData)), pools, pick, svc, game, now, failures);
            && o == Stuck(room.(gameState := StartingGame))
            && (forall u :: !Start(Some(o.room), u).ok)
            && !BeginCompiling(Some(o.room.gameState)).ok
  {
  }

  /** Dropping failures, the same start runs the round with the problems that
      did resolve, easiest first. */
  lemma DroppedFailuresStartRound(room: Room, uid: Uid, settings: GameSettings, pools: map<Contest, seq<Title>>,
                                  pick: (nat, nat) -> nat, svc: Services, game: Option<GameData>, now: int)
    requires room.gameState == Lobby && room.host.userId == uid
    requires GenerateProblems(settings, pools, pick, svc).Ok?
    ensures var ps := GenerateProblems(settings, pools, pick, svc).value;
            var o := StartRound(Some(room), uid, Some(settings), pools, pick, svc, game, now, Drop);
            && o.Running? && o.room.gameState == Game
            && |o.problems| == |ps| - Failures(ps)
            && (forall p :: p in o.problems <==> Some(p) in ps)
  {
  }

  // ---------------------------------------------------------------------------
  // Ending a round

  datatype Ending =
    | NotEnded                                             // the trigger found the room not in `game`
    | Ended(state: Option<GameState>, outcome: CompileOutcome)

  /** A trigger (timer or last submit) in index.ts: the guarded
      `game -> compiling-results` transaction, compileResults, and the
      `compiling-results -> lobby` flip, which runs only when compilation
      wrote its results. */
  function EndRound(state: Option<GameState>, contestData: Option<map<Contest, ContestData>>, g: Option<GameData>,
                    endReason: string, reading: Reading): (e: Ending)
    ensures e.NotEnded? <==> state != Some(Game)
    ensures e.Ended? ==> e.outcome == Compile(contestData, g, endReason, reading)
    ensures e.Ended? ==> (e.state == Some(Lobby) <==> e.outcome.Compiled?)
    ensures e.Ended? && !e.outcome.Compiled? ==> e.state == Some(CompilingResults)
  {
    var c := BeginCompiling(state);
    if !c.ok then NotEnded
    else
      var o := Compile(contestData, g, endReason, reading);
      Ended(if o.Compiled? then FinishCompiling(c.value) else c.value, o)
  }

  /** As written, a mid-round joiner who answers nothing leaves the room in
      `compiling-results` for good: the round is never scored and the room can
      never be started again. */
  lemma MidRoundJoinStrandsRoom(rs: ResponseMap, uid: Uid, sols: seq<Solution>, data: RoundData,
                                cd: map<Contest, ContestData>, endReason: string)
    requires rs != [] && !HasKey(rs, uid)
    requires sols != []
    ensures var g := GameData(Some(Results(Some(sols), None, None)), JoinResponses(rs, uid), Some(data));
            var e := EndRound(Some(Game), Some(cd), Some(g), endReason, AsWritten);
            && e == Ended(Some(CompilingResults), Threw)
            && !BeginCompiling(e.state).ok
  {
    MidRoundJoinThrows(rs, uid, sols, data, cd, endReason);
  }

  /** Reading missing answers as blank, the same round ends in the lobby. */
  lemma MidRoundJoinEndsInLobby(rs: ResponseMap, uid: Uid, sols: seq<Solution>, data: RoundData,
                                cd: map<Contest, ContestData>, endReason: string)
    requires rs != [] && !HasKey(rs, uid)
    requires Configured(sols, cd)
    ensures var g := GameData(Some(Results(Some(sols), None, None)), JoinResponses(rs, uid), Some(data));
            EndRound(Some(Game), Some(cd), Some(g), endReason, AbsentIsBlank).state == Some(Lobby)
  {
    MidRoundJoinCompiled(rs, uid, sols, data, cd, endReason);
  }

  /** A round started (dropping failures) compiles and returns to the lobby
      when it ends, as long as missing answers read as blank and at least one
      problem resolved. A round without problems has no
      `results` in the store, so compileResults declines and the room stays in
      `compiling-results`. */
  lemma StartedRoundEnds(room: Room, uid: Uid, settings: GameSettings, pools: map<Contest, seq<Title>>,
                         pick: (nat, nat) -> nat, svc: Services, game: GameData, now: int, endReason: string)
    requires room.gameState == Lobby && room.host.userId == uid
    requires game.responses != []
    requires GenerateProblems(settings, pools, pick, svc).Ok?
    ensures var o := StartRound(Some(room), uid, Some(settings), pools, pick, svc, Some(game), now, Drop);
            var e := EndRound(Some(o.room.gameState), Some(settings.contestData), o.game, endReason, AbsentIsBlank);
            && o.Running?
            && (e.state == Some(Lobby) <==> o.problems != [])
            && (o.problems == [] ==> e.state == Some(CompilingResults))
  {
    var o := StartRound(Some(room), uid, Some(settings), pools, pick, svc, Some(game), now, Drop);
    var sols := SolutionsOf(o.problems);
    StartedRoundConfigured(room, uid, settings, pools, pick, svc, game, now);
    var g := o.game.value;
    if o.problems != [] {
      assert |g.responses| == |Keys(g.responses)| == |Keys(game.responses)| == |game.responses|;
      CorrectedReadingOnlyThrowsOnMissingData(g.responses, g.data, sols, settings.contestData);
    }
  }

  /** Every problem a round starts with is of a contest with scores. */
  lemma StartedRoundConfigured(room: Room, uid: Uid, settings: GameSettings, pools: map<Contest, seq<Title>>,
                               pick: (nat, nat) -> nat, svc: Services, game: GameData, now: int)
    requires room.gameState == Lobby && room.host.userId == uid
    requires GenerateProblems(settings, pools, pick, svc).Ok?
    ensures var o := StartRound(Some(room), uid, Some(settings), pools, pick, svc, Some(game), now, Drop);
            o.Running? && Configured(SolutionsOf(o.problems), settings.contestData)
  {
    var o := StartRound(Some(room), uid, Some(settings), pools, pick, svc, Some(game), now, Drop);
    var sols := SolutionsOf(o.problems);
    forall i | 0 <= i < |sols| ensures sols[i].contest in settings.contestData {
      ProblemContestsSelected(settings, pools, pick, svc, o.problems[i]);
    }
  }

  /** Every resolved problem is of a selected contest. */
  lemma ProblemContestsSelected(settings: GameSettings, pools: map<Contest, seq<Title>>, pick: (nat, nat) -> nat,
                                svc: Services, p: Problem)
    requires GenerateProblems(settings, pools, pick, svc).Ok?
    requires Some(p) in GenerateProblems(settings, pools, pick, svc).value
    ensures p.contest in settings.contestData
  {
    var ps := GenerateProblems(settings, pools, pick, svc).value;
    var bs := Select(settings, pools, pick).value;
    var i :| 0 <= i < |ps| && ps[i] == Some(p);
    DetailsContests(bs, settings.contestData);
    assert DetailAt(Details(bs), i).Some?;
  }
}

=== FILE: js.dfy ===
/** JavaScript values and the few JavaScript operations the server relies on:
    truthiness, strict equality, `Array.prototype.includes`, `slice(0, end)`
    and `parseInt`. */
module Js {

  datatype Option<+T> = None | Some(value: T)

  /** The outcome of code that may throw. */
  datatype Result<+T, +E> = Ok(value: T) | Err(error: E)

  /** A value as stored in the realtime store or produced by the server.
      `Null` stands for both `null` and `undefined`; `NaN` is the value
      `parseInt` yields for text without digits. Objects other than arrays
      never reach the code modelled here. */
  datatype Json =
    | Null
    | Bool(b: bool)
    | Num(n: real)
    | NaN
    | Str(s: string)
    | Arr(items: seq<Json>)

  /** ToBoolean: `false`, `0`, `NaN`, `""` and `null` are falsy; arrays are objects, hence truthy. */
  predicate Truthy(v: Json) {
    match v
    case Null => false
    case Bool(b) => b
    case Num(n) => n != 0.0
    case NaN => false
    case Str(s) => s != ""
    case Arr(_) => true
  }

  /** `a === b`. Primitives compare by value and NaN equals nothing. Two arrays
      read from the store are distinct objects, so an array is never identical
      to anything the server compares it with. */
  predicate StrictEquals(a: Json, b: Json) {
    match (a, b)
    case (Null, Null) => true
    case (Bool(x), Bool(y)) => x == y
    case (Num(x), Num(y)) => x == y
    case (Str(x), Str(y)) => x == y
    case _ => false
  }

  /** SameValueZero, the comparison `includes` uses: `===` except that NaN matches NaN. */
  predicate SameValueZero(a: Json, b: Json) {
    StrictEquals(a, b) || (a.NaN? && b.NaN?)
  }

  /** `items.includes(v)`. */
  predicate Includes(items: seq<Json>, v: Json) {
    exists i :: 0 <= i < |items| && SameValueZero(items[i], v)
  }

  /** `s.slice(0, end)` for an integral `end`: a negative end counts from the back. */
  function SlicePrefix<T>(s: seq<T>, end: int): (r: seq<T>)
    ensures r <= s
    ensures 0 <= end <= |s| ==> r == s[..end]
    ensures |s| <= end ==> r == s
    ensures end < 0 ==> |r| == if |s| + end < 0 then 0 else |s| + end
  {
    if end < 0 then (if |s| + end < 0 then [] else s[..|s| + end])
    else if end <= |s| then s[..end]
    else s
  }

  // ---------------------------------------------------------------------------
  // parseInt(text) with no radix argument

  /** The white space parseInt skips before the number (the ASCII part of the
      WhiteSpace and LineTerminator sets). */
  predicate IsSpace(c: char) {
    c == ' ' || c == '\t' || c == '\n' || c == '\r' || c == '\U{000B}' || c == '\U{000C}'
  }

  function DigitValue(c: char, radix: nat): Option<nat> {
    var d: int :=
      if '0' <= c <= '9' then c as int - '0' as int
      else if 'a' <= c <= 'z' then c as int - 'a' as int + 10
      else if 'A' <= c <= 'Z' then c as int - 'A' as int + 10
      else -1;
    if 0 <= d < radix then Some(d) else None
  }

  predicate IsDigit(c: char, radix: nat) {
    DigitValue(c, radix).Some?
  }

  /** `s` without its leading white space: a suffix of `s` that does not start with a space. */
  function TrimStart(s: string): (r: string)
    ensures |r| <= |s| && r == s[|s| - |r|..]
    ensures r == [] || !IsSpace(r[0])
  {
    if s != [] && IsSpace(s[0]) then TrimStart(s[1..]) else s
  }

  /** Length of the longest prefix of `s` made of digits of `radix`. */
  function DigitRun(s: string, radix: nat): (k: nat)
    ensures k <= |s|
    ensures forall i :: 0 <= i < k ==> IsDigit(s[i], radix)
    ensures k < |s| ==> !IsDigit(s[k], radix)
  {
    if s != [] && IsDigit(s[0], radix) then 1 + DigitRun(s[1..], radix) else 0
  }

  /** The number the digit string `ds` denotes in `radix`, most significant
      digit first. Only ever applied to a run of digits of `radix`. */
  function DigitsValue(ds: string, radix: nat): nat {
    if ds == [] then 0
    else
      var high := DigitsValue(ds[..|ds| - 1], radix);
      var low := match DigitValue(ds[|ds| - 1], radix) case Some(d) => d case None => 0;
      high * radix + low
  }

  /** A leading `-` or `+`: whether the number is negative, and the text after the sign. */
  function SplitSign(t: string): (r: (bool, string))
    ensures r.0 <==> t != [] && t[0] == '-'
    ensures r.1 == if t != [] && (t[0] == '-' || t[0] == '+') then t[1..] else t
  {
    if t != [] && (t[0] == '-' || t[0] == '+') then (t[0] == '-', t[1..]) else (false, t)
  }

  /** A leading `0x` or `0X` selects radix 16 and is dropped; otherwise radix 10. */
  function SplitRadix(u: string): (r: (nat, string))
    ensures r.0 == 16 <==> |u| >= 2 && u[0] == '0' && (u[1] == 'x' || u[1] == 'X')
    ensures r.0 == 16 || r.0 == 10
    ensures r.1 == if r.0 == 16 then u[2..] else u
  {
    if |u| >= 2 && u[0] == '0' && (u[1] == 'x' || u[1] == 'X') then (16, u[2..]) else (10, u)
  }

  /** The value of the longest run of digits at the start of `w`; none without a digit. */
  function LeadingDigits(w: string, radix: nat): (r: Option<nat>)
    ensures r.None? <==> w == [] || !IsDigit(w[0], radix)
  {
    var k := DigitRun(w, radix);
    if k == 0 then None else Some(DigitsValue(w[..k], radix))
  }

  /** `parseInt(s)`: skip leading white space, read an optional sign and an
      optional `0x`/`0X` prefix (which selects radix 16), then the longest run
      of digits; no digits gives NaN. */
  function ParseInt(s: string): Json {
    var (negative, u) := SplitSign(TrimStart(s));
    var (radix, w) := SplitRadix(u);
    match LeadingDigits(w, radix)
    case None => NaN
    case Some(magnitude) => Num(if negative then -(magnitude as real) else magnitude as real)
  }

  /** The canonical decimal text of a natural number, without leading zeros. */
  function Decimal(n: nat): (s: string)
    ensures |s| >= 1
    ensures forall i :: 0 <= i < |s| ==> '0' <= s[i] <= '9'
    ensures n >= 10 ==> s[0] != '0'
  {
    var last := ['0' + ((n % 10) as char)];
    if n < 10 then last else Decimal(n / 10) + last
  }

  lemma {:induction false} DecimalValue(n: nat)
    ensures forall i :: 0 <= i < |Decimal(n)| ==> IsDigit(Decimal(n)[i], 10)
    ensures DigitsValue(Decimal(n), 10) == n
  {
    var s := Decimal(n);
    assert forall i :: 0 <= i < |s| ==> IsDigit(s[i], 10) by {
      forall i | 0 <= i < |s| ensures IsDigit(s[i], 10) {
        assert '0' <= s[i] <= '9';
      }
    }
    if n >= 10 {
      DecimalValue(n / 10);
      assert s[..|s| - 1] == Decimal(n / 10);
    }
  }

  lemma {:induction false} DigitRunOfDigits(s: string, radix: nat)
    requires forall i :: 0 <= i < |s| ==> IsDigit(s[i], radix)
    ensures DigitRun(s, radix) == |s|
  {
    if s != [] {
      DigitRunOfDigits(s[1..], radix);
    }
  }

  /** parseInt reads back the canonical decimal text of every natural number. */
  lemma ParseIntDecimal(n: nat)
    ensures ParseInt(Decimal(n)) == Num(n as real)
  {
    var s := Decimal(n);
    assert !IsSpace(s[0]);
    assert TrimStart(s) == s;
    assert SplitSign(s) == (false, s);
    assert SplitRadix(s) == (10, s) by {
      assert |s| >= 2 ==> s[1] != 'x' && s[1] != 'X';
    }
    DecimalValue(n);
    DigitRunOfDigits(s, 10);
    assert s[..|s|] == s;
    assert LeadingDigits(s, 10) == Some(n);
  }

  /** AIME answers are published with leading zeros: parseInt drops them. */
  lemma ParseIntLeadingZero()
    ensures ParseInt("042") == Num(42.0)
  {
    assert TrimStart("042") == "042";
    assert SplitSign("042") == (false, "042");
    assert SplitRadix("042") == (10, "042");
    assert DigitRun("042", 10) == 3;
    assert "042"[..3] == "042";
    assert "042"[..2] == "04";
    assert "042"[..1] == "0";
    assert DigitsValue("0", 10) == 0;
    assert DigitsValue("04", 10) == 4;
    assert LeadingDigits("042", 10) == Some(42);
  }

  /** parseInt skips leading space, keeps the sign and stops at the first non-digit. */
  lemma ParseIntStopsAtJunk()
    ensures ParseInt(" -7x") == Num(-7.0)
  {
    assert TrimStart("-7x") == "-7x";
    assert TrimStart(" -7x") == "-7x";
    assert "-7x"[1..] == "7x";
    assert SplitSign("-7x") == (true, "7x");
    assert SplitRadix("7x") == (10, "7x");
    assert DigitRun("x", 10) == 0;
    assert DigitRun("7x", 10) == 1;
    assert "7x"[..1] == "7";
    assert DigitsValue("7", 10) == 7;
    assert LeadingDigits("7x", 10) == Some(7);
  }

  predicate NoDecimalDigit(s: string) {
    forall i :: 0 <= i < |s| ==> !('0' <= s[i] <= '9')
  }

  lemma NoDecimalDigitSuffix(s: string, k: nat)
    requires NoDecimalDigit(s) && k <= |s|
    ensures NoDecimalDigit(s[k..])
  {
    forall i | 0 <= i < |s| - k ensures !('0' <= s[k..][i] <= '9') {
      assert s[k..][i] == s[k + i];
    }
  }

  /** Skipping space and a sign leaves a suffix of the text. */
  lemma NoDecimalDigitAfterSign(s: string)
    requires NoDecimalDigit(s)
    ensures NoDecimalDigit(SplitSign(TrimStart(s)).1)
  {
    var t := TrimStart(s);
    NoDecimalDigitSuffix(s, |s| - |t|);
    if t != [] && (t[0] == '-' || t[0] == '+') {
      NoDecimalDigitSuffix(t, 1);
    }
  }

  lemma NotDecimalDigit(c: char)
    requires !('0' <= c <= '9')
    ensures !IsDigit(c, 10)
  {
  }

  /** Text without a decimal digit is not a number: whatever space or sign it
      starts with, no digit follows. */
  lemma ParseIntNoDigits(s: string)
    requires NoDecimalDigit(s)
    ensures ParseInt(s) == NaN
  {
    var u := SplitSign(TrimStart(s)).1;
    NoDecimalDigitAfterSign(s);
    if u != [] {
      NotDecimalDigit(u[0]);
    }
    assert SplitRadix(u) == (10, u);
    assert LeadingDigits(u, 10).None?;
  }
}

=== FILE: lifecycle.dfy ===
/** The transactions that move a room's `gameState` during and after a round,
    in both iterations of the server, and the race between the round timer and
    the all-submitted check.

    The room-level transactions of index.ts that end a round read and write
    only `gameState`, so they are modelled on the `gameState` value; `None`
    means the room record is absent (a room record always has a `gameState`). */
module Lifecycle {
  import opened Js
  import opened Rooms

  /** `game -> compiling-results`, the transaction both the timer and the
      all-submitted path run in index.ts. It succeeds only from `game`. */
  function BeginCompiling(s: Option<GameState>): (c: Commit<Option<GameState>>)
    ensures c.ok <==> s == Some(Game)
    ensures c.ok ==> c.value == Some(CompilingResults)
    ensures !c.ok ==> c.value == s
  {
    if s.None? || s.value != Game then Commit(s, false)
    else Commit(Some(CompilingResults), true)
  }

  /** `compiling-results -> lobby` after the standings are written (index.ts):
      any other value is left alone. */
  function FinishCompiling(s: Option<GameState>): (s': Option<GameState>)
    ensures s == Some(CompilingResults) ==> s' == Some(Lobby)
    ensures s != Some(CompilingResults) ==> s' == s
  {
    if s.None? || s.value != CompilingResults then s else Some(Lobby)
  }

  /** The start handler's last transaction: an existing room becomes `game`. */
  function EnterGame(s: Option<GameState>): (s': Option<GameState>)
    ensures s.None? <==> s'.None?
    ensures s'.Some? ==> s'.value == Game
  {
    if s.None? then s else Some(Game)
  }

  // ---------------------------------------------------------------------------
  // index.js

  /** The timer's transaction in index.js: any existing room becomes
      `compiling-results`, whatever its state, and the timer then compiles. */
  function BeginCompilingOnTimerLegacy(s: Option<GameState>): (c: Commit<Option<GameState>>)
    ensures c.ok <==> s.Some?
    ensures c.ok ==> c.value == Some(CompilingResults)
    ensures !c.ok ==> c.value == s
  {
    if s.None? then Commit(s, false) else Commit(Some(CompilingResults), true)
  }

  /** The all-submitted transaction in index.js: the same unguarded write,
      after which the handler compiles without looking at the outcome. */
  function BeginCompilingOnSubmitLegacy(s: Option<GameState>): (s': Option<GameState>)
    ensures s.None? <==> s'.None?
    ensures s'.Some? ==> s'.value == CompilingResults
  {
    if s.None? then s else Some(CompilingResults)
  }

  /** compileResults in index.js ends with `set("lobby")`, which writes the
      field even when the room is gone. */
  function FinishCompilingLegacy(s: Option<GameState>): (s': Option<GameState>)
    ensures s' == Some(Lobby)
  {
    Some(Lobby)
  }

  // ---------------------------------------------------------------------------
  // The race between the round timer and the all-submitted check

  datatype Trigger = Timer | AllSubmitted

  /** One atomic store step of the race: a trigger's `compiling-results`
      transaction, or the closing `lobby` write of a compileResults that is
      running. Compilation itself only touches `gameData` and is not a step. */
  datatype Event = Fire(trigger: Trigger) | Close

  datatype Server = Current | Legacy

  /** The `gameState` value and how many times compileResults has been started. */
  datatype RaceState = RaceState(state: Option<GameState>, compilations: nat)

  function Step(server: Server, r: RaceState, e: Event): (r': RaceState)
    ensures r.compilations <= r'.compilations <= r.compilations + 1
  {
    match (server, e)
    case (Current, Fire(_)) =>
      var c := BeginCompiling(r.state);
      RaceState(c.value, r.compilations + if c.ok then 1 else 0)
    case (Current, Close) =>
      RaceState(FinishCompiling(r.state), r.compilations)
    case (Legacy, Fire(Timer)) =>
      var c := BeginCompilingOnTimerLegacy(r.state);
      RaceState(c.value, r.compilations + if c.ok then 1 else 0)
    case (Legacy, Fire(AllSubmitted)) =>
      RaceState(BeginCompilingOnSubmitLegacy(r.state), r.compilations + 1)
    case (Legacy, Close) =>
      RaceState(FinishCompilingLegacy(r.state), r.compilations)
  }

  /** Apply a schedule of steps in order. */
  function Run(server: Server, r: RaceState, events: seq<Event>): RaceState
    decreases |events|
  {
    if events == [] then r else Run(server, Step(server, r, events[0]), events[1..])
  }

  /** Once a round has been closed, nothing in the race reopens it. */
  lemma {:induction false} CurrentNeverReopens(r: RaceState, events: seq<Event>)
    requires r.compilations <= 1
    requires r.compilations == 1 ==> r.state != Some(Game)
    ensures Run(Current, r, events).compilations <= 1
    ensures Run(Current, r, events).compilations == 1 ==> Run(Current, r, events).state != Some(Game)
    decreases |events|
  {
    if events != [] {
      CurrentNeverReopens(Step(Current, r, events[0]), events[1..]);
    }
  }

  /** In index.ts the timer and the all-submitted check, fired in any order and
      interleaved with any closing writes, start compileResults at most once. */
  lemma CurrentCompilesAtMostOnce(s: Option<GameState>, events: seq<Event>)
    ensures Run(Current, RaceState(s, 0), events).compilations <= 1
  {
    CurrentNeverReopens(RaceState(s, 0), events);
  }

  lemma {:induction false} RunIsMonotone(server: Server, r: RaceState, events: seq<Event>)
    ensures Run(server, r, events).compilations >= r.compilations
    decreases |events|
  {
    if events != [] {
      RunIsMonotone(server, Step(server, r, events[0]), events[1..]);
    }
  }

  /** And from `game`, the first trigger to fire wins: the round is compiled
      exactly once. */
  lemma {:induction false} CurrentCompilesExactlyOnce(events: seq<Event>, t: Trigger)
    requires Fire(t) in events
    ensures Run(Current, RaceState(Some(Game), 0), events).compilations == 1
    decreases |events|
  {
    CurrentCompilesAtMostOnce(Some(Game), events);
    var r := RaceState(Some(Game), 0);
    if events[0] == Close {
      assert Step(Current, r, Close) == r;
      assert Fire(t) in events[1..];
      CurrentCompilesExactlyOnce(events[1..], t);
    } else {
      RunIsMonotone(Current, Step(Current, r, events[0]), events[1..]);
    }
  }

  /** In index.js both triggers compile the same round, in either order, with
      or without the first compilation's closing write in between. */
  lemma LegacyCompilesTwice()
    ensures Run(Legacy, RaceState(Some(Game), 0), [Fire(Timer), Fire(AllSubmitted)]).compilations == 2
    ensures Run(Legacy, RaceState(Some(Game), 0), [Fire(AllSubmitted), Fire(Timer)]).compilations == 2
    ensures Run(Legacy, RaceState(Some(Game), 0), [Fire(Timer), Close, Fire(AllSubmitted)]).compilations == 2
  {
    assert [Fire(Timer), Fire(AllSubmitted)][1..] == [Fire(AllSubmitted)];
    assert [Fire(AllSubmitted), Fire(Timer)][1..] == [Fire(Timer)];
    assert [Fire(Timer), Close, Fire(AllSubmitted)][1..] == [Close, Fire(AllSubmitted)];
    assert [Close, Fire(AllSubmitted)][1..] == [Fire(AllSubmitted)];
  }

  /** The same two schedules under index.ts compile once. */
  lemma CurrentCompilesOnceOnLegacySchedules()
    ensures Run(Current, RaceState(Some(Game), 0), [Fire(Timer), Fire(AllSubmitted)]).compilations == 1
    ensures Run(Current, RaceState(Some(Game), 0), [Fire(AllSubmitted), Fire(Timer)]).compilations == 1
    ensures Run(Current, RaceState(Some(Game), 0), [Fire(Timer), Close, Fire(AllSubmitted)]).compilations == 1
  {
    CurrentCompilesExactlyOnce([Fire(Timer), Fire(AllSubmitted)], Timer);
    CurrentCompilesExactlyOnce([Fire(AllSubmitted), Fire(Timer)], Timer);
    CurrentCompilesExactlyOnce([Fire(Timer), Close, Fire(AllSubmitted)], Timer);
  }
}

=== FILE: responses.dfy ===
/** The `gameData/<room>/responses` object: one record per user id, and the
    transactions that reset, stamp and retire those records. */
module Responses {
  import opened Js
  import opened Assoc
  import opened Rooms

  /** A response's `status`. Every write of `submitted` also writes
      `finishTime`, so the time travels with the status. */
  datatype Status = Unsubmitted | Submitted(finishTime: int) | Disconnected

  /** One user's record. `answers` is None when the record has no `answers`
      field (a record written by join carries none). The record's `socketId`
      field is written but never read by the server and is left out. */
  datatype Response = Response(status: Status, answers: Option<seq<Json>>)

  type ResponseMap = seq<Entry<Response>>

  predicate Done(r: Response) {
    !r.status.Unsubmitted?
  }

  /** The join-room write (index.ts): `responses[uid] = { ...old, status: "unsubmitted" }`,
      keeping any earlier answers; an absent responses object is left absent. */
  function JoinResponses(rs: ResponseMap, uid: Uid): (rs': ResponseMap)
    ensures rs == [] ==> rs' == []
    ensures rs != [] ==> Get(rs', uid).Some? && Get(rs', uid).value.status == Unsubmitted
    ensures rs != [] ==> (Get(rs, uid).Some? ==> Get(rs', uid).value.answers == Get(rs, uid).value.answers)
    ensures forall u :: u != uid ==> Get(rs', u) == Get(rs, u)
  {
    if rs == [] then rs
    else
      var prior := Get(rs, uid);
      Put(rs, uid, Response(Unsubmitted, if prior.Some? then prior.value.answers else None))
  }

  /** The join-room write of index.js: an `update` that replaces the user's
      record by a fresh unsubmitted one without answers, creating the object
      if needed. */
  function JoinResponsesLegacy(rs: ResponseMap, uid: Uid): (rs': ResponseMap)
    ensures Get(rs', uid) == Some(Response(Unsubmitted, None))
    ensures forall u :: u != uid ==> Get(rs', u) == Get(rs, u)
  {
    Put(rs, uid, Response(Unsubmitted, None))
  }

  /** The round reset a start performs. */
  function ResetOne(r: Response): Response {
    Response(if r.status.Submitted? then Unsubmitted else r.status, Some([]))
  }

  /** Reset every record for a new round: answers emptied, `submitted` turned
      back to `unsubmitted`, any other status (a disconnected user) kept. */
  function ResetResponses(rs: ResponseMap): (rs': ResponseMap)
    ensures Keys(rs') == Keys(rs)
    ensures forall i :: 0 <= i < |rs| ==> rs'[i].val.answers == Some([])
    ensures forall i :: 0 <= i < |rs| ==>
              rs'[i].val.status == (if rs[i].val.status.Disconnected? then Disconnected else Unsubmitted)
  {
    var rs' := seq(|rs|, i requires 0 <= i < |rs| => Entry(rs[i].key, ResetOne(rs[i].val)));
    assert forall i :: 0 <= i < |rs| ==> Keys(rs')[i] == Keys(rs)[i];
    rs'
  }

  /** A reset of an already reset map changes nothing. */
  lemma ResetIdempotent(rs: ResponseMap)
    ensures ResetResponses(ResetResponses(rs)) == ResetResponses(rs)
  {
  }

  /** The submit transaction on `responses/<uid>`: only `unsubmitted` becomes
      `submitted`, stamped with the current time; the flag tells the handler
      whether anything happened. */
  function Submit(r: Option<Response>, now: int): (c: Commit<Option<Response>>)
    ensures c.ok <==> r.Some? && r.value.status == Unsubmitted
    ensures c.ok ==> c.value == Some(r.value.(status := Submitted(now)))
    ensures !c.ok ==> c.value == r
  {
    if r.None? || r.value.status != Unsubmitted then Commit(r, false)
    else Commit(Some(r.value.(status := Submitted(now))), true)
  }

  /** A second submit, at any later time, is a no-op that reports nothing. */
  lemma SubmitIdempotent(r: Option<Response>, now: int, later: int)
    ensures var once := Submit(r, now).value;
            Submit(once, later) == Commit(once, false)
  {
  }

  /** Marking a leaver (index.ts): an absent record stays absent, a present one
      becomes `disconnect` with its answers kept. */
  function MarkDisconnected(r: Option<Response>): (r': Option<Response>)
    ensures r.None? <==> r'.None?
    ensures r'.Some? ==> r'.value == r.value.(status := Disconnected)
  {
    if r.None? then r else Some(r.value.(status := Disconnected))
  }

  /** Marking a leaver (index.js): an `update`, which also creates the record. */
  function MarkDisconnectedLegacy(r: Option<Response>): (r': Response)
    ensures r'.status == Disconnected
    ensures r.Some? ==> r'.answers == r.value.answers
  {
    if r.None? then Response(Disconnected, None) else r.value.(status := Disconnected)
  }

  /** The all-submitted check: no record is still `unsubmitted`. A departed
      user counts as done. */
  predicate AllDone(rs: ResponseMap) {
    forall i :: 0 <= i < |rs| ==> Done(rs[i].val)
  }

  datatype SubmitReport = SubmitReport(responses: ResponseMap, acknowledged: bool, triesToEnd: bool)

  /** The whole submit handler of index.ts for one user: nothing unless the room
      is in `game`; then the stamping transaction; and only if that transaction
      changed the record, the all-submitted check that tries to end the round.
      The re-read of the responses is taken to see the value just committed. */
  function SubmitHandler(state: Option<GameState>, rs: ResponseMap, uid: Uid, now: int): (r: SubmitReport)
    ensures r.acknowledged <==> state == Some(Game) && Get(rs, uid).Some? && Get(rs, uid).value.status == Unsubmitted
    ensures !r.acknowledged ==> r.responses == rs && !r.triesToEnd
    ensures r.acknowledged ==> Get(r.responses, uid) == Some(Get(rs, uid).value.(status := Submitted(now)))
    ensures r.acknowledged ==> forall u :: u != uid ==> Get(r.responses, u) == Get(rs, u)
    ensures r.triesToEnd <==> r.acknowledged && AllDone(r.responses)
  {
    if state != Some(Game) then SubmitReport(rs, false, false)
    else
      var c := Submit(Get(rs, uid), now);
      if !c.ok then SubmitReport(rs, false, false)
      else
        var rs' := Put(rs, uid, c.value.value);
        SubmitReport(rs', true, rs' != [] && AllDone(rs'))
  }

  /** A repeated submit by a user who already submitted changes nothing and does
      not re-run the all-submitted check. */
  lemma {:induction false} RepeatedSubmitIsNoOp(state: Option<GameState>, rs: ResponseMap, uid: Uid, now: int, later: int)
    ensures var first := SubmitHandler(state, rs, uid, now);
            var second := SubmitHandler(state, first.responses, uid, later);
            second == SubmitReport(first.responses, false, false)
  {
    var first := SubmitHandler(state, rs, uid, now);
    if first.acknowledged {
      assert Get(first.responses, uid).value.status == Submitted(now);
    }
  }

  /** The last outstanding submit is the one that tries to end the round. */
  lemma {:induction false} LastSubmitTriesToEnd(rs: ResponseMap, uid: Uid, now: int)
    requires DistinctKeys(rs)
    requires Get(rs, uid).Some? && Get(rs, uid).value.status == Unsubmitted
    requires forall i :: 0 <= i < |rs| && rs[i].key != uid ==> Done(rs[i].val)
    ensures SubmitHandler(Some(Game), rs, uid, now).triesToEnd
  {
    var r := SubmitHandler(Some(Game), rs, uid, now);
    var rs' := r.responses;
    assert r.acknowledged;
    forall i | 0 <= i < |rs'| ensures Done(rs'[i].val) {
      var k := rs'[i].key;
      assert Get(rs', k) == Some(rs'[i].val) by { Assoc.GetOfDistinct(rs', i); }
      if k != uid {
        assert Get(rs, k) == Some(rs'[i].val);
        var j :| 0 <= j < |rs| && rs[j] == Entry(k, rs'[i].val);
      }
    }
  }
}

=== FILE: rooms.dfy ===
/** The `rooms/<id>` record and the store transactions that change its
    membership: create, join (capacity guard), exit (room deletion and host
    transfer) and start (host-only, lobby-only). Each transaction is a pure
    transform of the record read from the store; `None` is an absent record,
    and a transform that declines returns the record unchanged. */
module Rooms {
  import opened Js
  import opened Assoc

  type SocketId = string
  type Uid = string

  /** The `gameState` field: `initializing-room`, `lobby`, `starting-game`,
      `game`, `compiling-results`. */
  datatype GameState = InitializingRoom | Lobby | StartingGame | Game | CompilingResults

  datatype Host = Host(socketId: SocketId, userId: Uid)

  /** A room. `users` maps each member socket to its user id (the stored
      `{ userId }` object), in iteration order. The display fields are stored as
      the client sent them and are never read by the transforms. */
  datatype Room = Room(
    name: Json,
    description: Json,
    mode: Json,
    roomPublic: Json,
    maxUsers: int,
    timeLimit: int,
    gameState: GameState,
    host: Host,
    users: seq<Entry<Uid>>)

  /** A transform's new value and whether it took effect. */
  datatype Commit<T> = Commit(value: T, ok: bool)

  const DefaultMaxUsers: int := 8
  const DefaultTimeLimitMinutes: int := 60

  /** The shape every live room keeps: distinct sockets, at least one and at
      most `maxUsers` members, and a host that is a member under its own user id. */
  predicate WellFormed(r: Room) {
    && DistinctKeys(r.users)
    && 1 <= |r.users| <= r.maxUsers
    && Get(r.users, r.host.socketId) == Some(r.host.userId)
  }

  /** The record `create-room` writes: the creator is the only member and the
      host, with the default capacity and round length. */
  function NewRoom(sid: SocketId, uid: Uid, name: Json, description: Json, mode: Json, roomPublic: Json): (r: Room)
    ensures WellFormed(r)
    ensures Keys(r.users) == [sid] && r.host.userId == uid
    ensures r.gameState == InitializingRoom
    ensures r.maxUsers == 8 && r.timeLimit == 60
  {
    Room(name, description, mode, roomPublic, DefaultMaxUsers, DefaultTimeLimitMinutes,
         InitializingRoom, Host(sid, uid), [Entry(sid, uid)])
  }

  /** The `roomPush.update({ gameState: "lobby" })` that ends creation. */
  function OpenRoom(r: Room): (r': Room)
    ensures r'.gameState == Lobby
    ensures r' == r.(gameState := r'.gameState)
  {
    r.(gameState := Lobby)
  }

  // ---------------------------------------------------------------------------
  // join-room

  /** The join transaction. An absent room, a room with no `users` object
      (the store keeps no empty objects) or a room already holding `maxUsers`
      members is left as it is; otherwise `users[sid] = { userId: uid }`. */
  function Join(room: Option<Room>, sid: SocketId, uid: Uid): (c: Commit<Option<Room>>)
    ensures c.ok <==> room.Some? && 0 < |room.value.users| < room.value.maxUsers
    ensures !c.ok ==> c.value == room
    ensures c.ok ==> c.value.Some?
    ensures c.ok ==> c.value.value == room.value.(users := c.value.value.users)
    ensures c.ok ==> Get(c.value.value.users, sid) == Some(uid)
    ensures c.ok ==> forall s :: s != sid ==> Get(c.value.value.users, s) == Get(room.value.users, s)
    ensures c.ok ==> |c.value.value.users| == |room.value.users| + (if HasKey(room.value.users, sid) then 0 else 1)
    ensures c.ok ==> |c.value.value.users| <= c.value.value.maxUsers
  {
    if room.None? || |room.value.users| == 0 then Commit(room, false)
    else if room.value.maxUsers <= |room.value.users| then Commit(room, false)
    else
      var users := Put(room.value.users, sid, uid);
      assert |Keys(users)| == |users|;
      Commit(Some(room.value.(users := users)), true)
  }

  datatype JoinError = RoomDoesNotExist | RoomIsFull

  /** How the handler reports a declined join: it looks at the value the
      transaction left behind, so an absent room "does not exist" and any
      other refusal is "full". */
  function JoinReport(room: Option<Room>, sid: SocketId, uid: Uid): (r: Option<JoinError>)
    ensures r.None? <==> room.Some? && 0 < |room.value.users| < room.value.maxUsers
    ensures r == Some(RoomDoesNotExist) <==> room.None?
    ensures r == Some(RoomIsFull) <==>
              room.Some? && (|room.value.users| == 0 || room.value.maxUsers <= |room.value.users|)
  {
    var c := Join(room, sid, uid);
    if c.ok then None
    else if c.value.None? then Some(RoomDoesNotExist)
    else Some(RoomIsFull)
  }

  /** A join by a socket that is not yet a member (or is a member under the same
      user id) keeps a room well formed: capacity is never exceeded. */
  lemma JoinPreservesWellFormed(r: Room, sid: SocketId, uid: Uid)
    requires WellFormed(r)
    requires Get(r.users, sid).None? || Get(r.users, sid) == Some(uid)
    ensures Join(Some(r), sid, uid).value.Some?
    ensures WellFormed(Join(Some(r), sid, uid).value.value)
  {
    var c := Join(Some(r), sid, uid);
    if c.ok {
      var r' := c.value.value;
      if r.host.socketId != sid {
        assert Get(r'.users, r.host.socketId) == Get(r.users, r.host.socketId);
      }
    }
  }

  /** Concurrent joins against a room with `k` free places: whatever the
      order, a join succeeds exactly when fewer than `maxUsers` members are
      present, so the `k`-th new socket fills the room and the next is refused. */
  lemma JoinFillsThenRefuses(r: Room, sid1: SocketId, uid1: Uid, sid2: SocketId, uid2: Uid)
    requires WellFormed(r)
    requires |r.users| == r.maxUsers - 1
    requires !HasKey(r.users, sid1) && !HasKey(r.users, sid2) && sid1 != sid2
    ensures Join(Some(r), sid1, uid1).ok
    ensures !Join(Join(Some(r), sid1, uid1).value, sid2, uid2).ok
    ensures JoinReport(Join(Some(r), sid1, uid1).value, sid2, uid2) == Some(RoomIsFull)
  {
  }

  /** A socket asking to join, and the user it authenticated as. */
  datatype Joiner = Joiner(socketId: SocketId, userId: Uid)

  /** Join transactions on one room, in the order the store serialises them:
      the room left at the end, and each attempt's report (`None` when it joined). */
  function JoinEach(room: Option<Room>, js: seq<Joiner>): (r: (Option<Room>, seq<Option<JoinError>>))
    ensures |r.1| == |js|
    decreases |js|
  {
    if js == [] then (room, [])
    else
      var rest := JoinEach(Join(room, js[0].socketId, js[0].userId).value, js[1..]);
      (rest.0, [JoinReport(room, js[0].socketId, js[0].userId)] + rest.1)
  }

  /** Distinct sockets, none of them already in the room. */
  predicate NewSockets(r: Room, js: seq<Joiner>) {
    && (forall i :: 0 <= i < |js| ==> !HasKey(r.users, js[i].socketId))
    && (forall i, j :: 0 <= i < j < |js| ==> js[i].socketId != js[j].socketId)
  }

  /** The reports of `n` joins against `free` places: joined while a place
      is left, full afterwards. */
  function Admissions(n: nat, free: int): (a: seq<Option<JoinError>>)
    ensures |a| == n
  {
    if n == 0 then [] else [if free > 0 then None else Some(RoomIsFull)] + Admissions(n - 1, free - 1)
  }

  lemma {:induction false} AdmissionsAt(n: nat, free: int, i: nat)
    requires i < n
    ensures Admissions(n, free)[i] == if i < free then None else Some(RoomIsFull)
  {
    if i > 0 {
      AdmissionsAt(n - 1, free - 1, i - 1);
    } else if n > 1 {
      AdmissionsAt(n - 1, free - 1, 0);
    }
  }

  /** Entry by entry: the first `free` joiners join, every later one is
      refused as full. */
  lemma {:induction false} AdmissionsSpelled(n: nat, free: int)
    ensures forall i :: 0 <= i < n ==> Admissions(n, free)[i] == if i < free then None else Some(RoomIsFull)
  {
    forall i | 0 <= i < n ensures Admissions(n, free)[i] == if i < free then None else Some(RoomIsFull) {
      AdmissionsAt(n, free, i);
    }
  }

  /** Once no place is free, every further join is refused. */
  lemma {:induction false} AdmissionsRefused(n: nat, free: int, free': int)
    requires free <= 0 && free' <= 0
    ensures Admissions(n, free) == Admissions(n, free')
  {
    if n > 0 {
      AdmissionsRefused(n - 1, free - 1, free' - 1);
    }
  }

  /** Any number of new sockets joining a room with `free` places left, in
      whatever order their transactions commit: the reports are
      `Admissions(n, free)` (the first `free` join, every later one is refused
      as full), and the room stays well formed with `min(n, free)` more members. */
  lemma ConcurrentJoinsFillRoom(r: Room, js: seq<Joiner>)
    requires WellFormed(r)
    requires NewSockets(r, js)
    ensures var free := r.maxUsers - |r.users|;
            var res := JoinEach(Some(r), js);
            && res.1 == Admissions(|js|, free)
            && res.0.Some? && WellFormed(res.0.value)
            && |res.0.value.users| == |r.users| + (if |js| < free then |js| else free)
  {
    JoinEachAdmits(r, js);
    JoinEachFills(r, js);
  }

  lemma {:induction false} JoinEachAdmits(r: Room, js: seq<Joiner>)
    requires WellFormed(r)
    requires NewSockets(r, js)
    ensures JoinEach(Some(r), js).1 == Admissions(|js|, r.maxUsers - |r.users|)
    decreases |js|
  {
    if js != [] {
      var free := r.maxUsers - |r.users|;
      var r' := JoinEachStep(r, js);
      var tail := JoinEach(Some(r'), js[1..]).1;
      JoinEachAdmits(r', js[1..]);
      assert Admissions(|js|, free) == [if free > 0 then None else Some(RoomIsFull)] + Admissions(|js| - 1, free - 1);
      if free > 0 {
        assert tail == Admissions(|js| - 1, free - 1);
      } else {
        AdmissionsRefused(|js| - 1, free, free - 1);
        assert tail == Admissions(|js| - 1, free - 1);
      }
    }
  }

  lemma {:induction false} JoinEachFills(r: Room, js: seq<Joiner>)
    requires WellFormed(r)
    requires NewSockets(r, js)
    ensures var free := r.maxUsers - |r.users|;
            var res := JoinEach(Some(r), js);
            && res.0.Some? && WellFormed(res.0.value)
            && |res.0.value.users| == |r.users| + (if |js| < free then |js| else free)
    decreases |js|
  {
    if js != [] {
      var r' := JoinEachStep(r, js);
      JoinEachFills(r', js[1..]);
    }
  }

  /** The first join transaction: the room `r'` it leaves, still well formed
      and with the remaining sockets still new, and its report. */
  lemma JoinEachStep(r: Room, js: seq<Joiner>) returns (r': Room)
    requires WellFormed(r)
    requires NewSockets(r, js)
    requires js != []
    ensures WellFormed(r') && NewSockets(r', js[1..])
    ensures r'.maxUsers == r.maxUsers
    ensures |r'.users| == if |r.users| < r.maxUsers then |r.users| + 1 else |r.users|
    ensures JoinEach(Some(r), js).0 == JoinEach(Some(r'), js[1..]).0
    ensures JoinEach(Some(r), js).1 == [if |r.users| < r.maxUsers then None else Some(RoomIsFull)] + JoinEach(Some(r'), js[1..]).1
  {
    var j := js[0];
    var c := Join(Some(r), j.socketId, j.userId);
    if |r.users| < r.maxUsers {
      JoinPreservesWellFormed(r, j.socketId, j.userId);
      r' := c.value.value;
    } else {
      r' := r;
    }
    NewSocketsTail(r, r', js);
  }

  /** The sockets after the first are still new to a room that differs at most
      in the first socket's entry. */
  lemma NewSocketsTail(r: Room, r': Room, js: seq<Joiner>)
    requires js != [] && NewSockets(r, js)
    requires forall s :: s != js[0].socketId ==> Get(r'.users, s) == Get(r.users, s)
    ensures NewSockets(r', js[1..])
  {
    var tail := js[1..];
    forall i | 0 <= i < |tail| ensures !HasKey(r'.users, tail[i].socketId) {
      assert tail[i] == js[i + 1] && js[i + 1].socketId != js[0].socketId;
      assert Get(r'.users, tail[i].socketId) == Get(r.users, tail[i].socketId);
    }
    forall a, b | 0 <= a < b < |tail| ensures tail[a].socketId != tail[b].socketId {
      assert tail[a] == js[a + 1] && tail[b] == js[b + 1];
    }
  }

  // ---------------------------------------------------------------------------
  // exit-room and disconnect

  datatype ExitOutcome =
    | NotInRoom          // the transaction declined: no room, or the socket is not a member
    | RoomDeleted(uid: Uid)  // the leaver was the last member; the record is removed
    | Left(uid: Uid)     // the leaver's entry is removed

  datatype ExitCommit = ExitCommit(value: Option<Room>, outcome: ExitOutcome)

  /** The first member, in iteration order, whose socket is not `sid`. */
  function FirstOther(users: seq<Entry<Uid>>, sid: SocketId): (r: Option<Entry<Uid>>)
    ensures r.Some? ==> r.value in users && r.value.key != sid
    ensures r.None? ==> forall i :: 0 <= i < |users| ==> users[i].key == sid
  {
    if users == [] then None
    else if users[0].key != sid then Some(users[0])
    else FirstOther(users[1..], sid)
  }

  /** The exit transaction. A socket that is not a member changes nothing. The
      last member deletes the room. Otherwise a leaving host hands the room to
      the first other member, under that member's own user id, and only the
      leaver's entry is removed. */
  function Exit(room: Option<Room>, sid: SocketId): (c: ExitCommit)
    ensures c.outcome.NotInRoom? <==> room.None? || !HasKey(room.value.users, sid)
    ensures c.outcome.NotInRoom? ==> c.value == room
    ensures c.outcome.RoomDeleted? <==> room.Some? && HasKey(room.value.users, sid) && |room.value.users| <= 1
    ensures c.outcome.RoomDeleted? ==> c.value.None?
    ensures !c.outcome.NotInRoom? ==> Get(room.value.users, sid) == Some(c.outcome.uid)
    ensures c.outcome.Left? ==> c.value.Some?
    ensures c.outcome.Left? ==>
              var before, after := room.value, c.value.value;
              && after == before.(host := after.host, users := after.users)
              && !HasKey(after.users, sid)
              && (forall s :: s != sid ==> Get(after.users, s) == Get(before.users, s))
              && (before.host.socketId != sid ==> after.host == before.host)
  {
    if room.None? || Get(room.value.users, sid).None? then ExitCommit(room, NotInRoom)
    else
      var r := room.value;
      var uid := Get(r.users, sid).value;
      if |r.users| <= 1 then ExitCommit(None, RoomDeleted(uid))
      else
        var host :=
          if r.host.socketId == sid then
            match FirstOther(r.users, sid)
            case Some(e) => Host(e.key, e.val)
            case None => r.host
          else r.host;
        ExitCommit(Some(r.(host := host, users := Remove(r.users, sid))), Left(uid))
  }

  /** Host transfer picks the first other member in iteration order: the first
      entry, or the second one when the leaver is first. */
  lemma {:induction false} ExitTransfersHost(r: Room, sid: SocketId)
    requires WellFormed(r)
    requires r.host.socketId == sid && |r.users| >= 2
    ensures Exit(Some(r), sid).outcome.Left?
    ensures var m := if r.users[0].key != sid then 0 else 1;
            Exit(Some(r), sid).value == Some(r.(host := Host(r.users[m].key, r.users[m].val),
                                                 users := Remove(r.users, sid)))
  {
    assert HasKey(r.users, sid);
    if r.users[0].key == sid {
      assert Keys(r.users[1..])[0] == r.users[1].key;
      assert r.users[1].key != sid;
      assert FirstOther(r.users[1..], sid) == Some(r.users[1]);
    }
  }

  /** Exit keeps a surviving room well formed: it still has a host who is a
      member, and its membership shrank by exactly the leaver. */
  lemma {:induction false} ExitPreservesWellFormed(r: Room, sid: SocketId)
    requires WellFormed(r)
    ensures var c := Exit(Some(r), sid);
            c.value.Some? ==> WellFormed(c.value.value)
    ensures var c := Exit(Some(r), sid);
            c.outcome.Left? ==> |c.value.value.users| == |r.users| - 1
  {
    var c := Exit(Some(r), sid);
    if c.outcome.Left? {
      var r' := c.value.value;
      assert HasKey(r.users, sid);
      if r.host.socketId == sid {
        ExitTransfersHost(r, sid);
        var m := if r.users[0].key != sid then 0 else 1;
        assert r.users[m].key != sid by {
          if m == 1 { assert Keys(r.users[1..])[0] == r.users[1].key; }
        }
        var e := r.users[m];
        assert Get(r.users, e.key) == Some(e.val) by {
          if m == 1 {
            assert r.users[1..][0] == e;
          }
        }
        assert Get(r'.users, e.key) == Some(e.val);
      }
    }
  }

  // ---------------------------------------------------------------------------
  // start-game

  /** The start transaction: only the host's user id may start, and only from
      the lobby; the room then moves to `starting-game`. */
  function Start(room: Option<Room>, uid: Uid): (c: Commit<Option<Room>>)
    ensures c.ok <==> room.Some? && room.value.gameState == Lobby && room.value.host.userId == uid
    ensures c.ok ==> c.value == Some(room.value.(gameState := StartingGame))
    ensures !c.ok ==> c.value == room
  {
    if room.None? || room.value.gameState != Lobby || room.value.host.userId != uid then Commit(room, false)
    else Commit(Some(room.value.(gameState := StartingGame)), true)
  }

  /** Two start requests racing on one room (a double click, two tabs of the
      host): in either order at most one of them starts the round. */
  lemma StartAtMostOnce(room: Option<Room>, uid1: Uid, uid2: Uid)
    ensures !(Start(room, uid1).ok && Start(Start(room, uid1).value, uid2).ok)
  {
  }

  // ---------------------------------------------------------------------------
  // The earlier iteration (index.js) of start-game

  datatype LegacyStart =
    | StartIgnored              // the room or its settings are missing
    | StartDenied               // `start-game-error`: the caller is not the host
    | Started(room: Room)       // gameState set to `starting-game`

  /** index.js reads the room and its settings outside any transaction, checks
      only that the caller is the host, and then sets `starting-game` whatever
      the current state. */
  function StartLegacy(room: Option<Room>, hasSettings: bool, uid: Uid): (r: LegacyStart)
    ensures r.StartIgnored? <==> room.None? || !hasSettings
    ensures r.StartDenied? <==> room.Some? && hasSettings && room.value.host.userId != uid
    ensures r.Started? ==> r.room == room.value.(gameState := StartingGame)
  {
    if !hasSettings || room.None? then StartIgnored
    else if room.value.host.userId != uid then StartDenied
    else Started(room.value.(gameState := StartingGame))
  }

  /** In index.js nothing stops a second start: two host requests both start,
      and a start in the middle of a round abandons it. The current transform
      refuses both. */
  lemma LegacyStartIsUnguarded(r: Room)
    requires r.gameState == Game
    ensures StartLegacy(Some(r), true, r.host.userId).Started?
    ensures var once := StartLegacy(Some(r.(gameState := Lobby)), true, r.host.userId);
            once.Started? && StartLegacy(Some(once.room), true, r.host.userId).Started?
    ensures !Start(Some(r), r.host.userId).ok
  {
  }
}

=== FILE: scoring.dfy ===
/** compileResults: the transaction on `gameData/<room>` that turns the round's
    responses into standings (identical in index.ts and index.js). */
module Scoring {
  import opened Js
  import opened Assoc
  import opened Settings
  import opened Rooms
  import opened Responses
  import opened Sorting

  /** The part of a `results.answers` entry that scoring reads. */
  datatype Solution = Solution(contest: Contest, answer: Json)

  /** `data`: when the round started and how long it lasts, in milliseconds. */
  datatype RoundData = RoundData(startTime: int, timeLimit: int)

  datatype Standing = Standing(userId: Uid, correct: nat, blank: nat, score: real, timeUsed: int)

  /** `results`: the solutions written at start, and the standings and end
      reason written by compileResults. */
  datatype Results = Results(answers: Option<seq<Solution>>, standings: Option<seq<Standing>>, endReason: Option<string>)

  /** `gameData/<room>`. An empty responses object is an absent one. */
  datatype GameData = GameData(results: Option<Results>, responses: ResponseMap, data: Option<RoundData>)

  // ---------------------------------------------------------------------------
  // One answer

  /** `response !== 0 && !response`: unanswered. Zero is an answer. */
  predicate IsBlank(v: Json) {
    !StrictEquals(v, Num(0.0)) && !Truthy(v)
  }

  datatype Verdict = Blank | Correct | Incorrect

  /** A response is judged blank first; otherwise it is correct when it is one
      of the accepted answers of a list, or is identical to a single answer. */
  function Judge(solution: Json, response: Json): (v: Verdict)
    ensures v == Blank <==> response in {Null, Bool(false), NaN, Str("")}
    ensures v == Correct ==> response != Null && !response.NaN? && !response.Arr?
    ensures !solution.Arr? ==> (v == Correct <==> response == solution && !IsBlank(response) && !solution.NaN?)
    ensures solution.Arr? ==> (v == Correct <==> !IsBlank(response) && exists i :: 0 <= i < |solution.items| && SameValueZero(solution.items[i], response))
  {
    if IsBlank(response) then Blank
    else if (solution.Arr? && Includes(solution.items, response)) || StrictEquals(solution, response) then Correct
    else Incorrect
  }

  /** Text is never identical to a number: "5" does not answer 5. */
  lemma TextDoesNotMatchNumber()
    ensures Judge(Num(5.0), Str("5")) == Incorrect
  {
  }

  /** An answer of 0 is judged, not counted blank. */
  lemma ZeroIsAnAnswer()
    ensures Judge(Num(0.0), Num(0.0)) == Correct
    ensures Judge(Num(3.0), Num(0.0)) == Incorrect
  {
  }

  // ---------------------------------------------------------------------------
  // One user's tally

  datatype Tally = Tally(correct: nat, blank: nat, score: real)

  /** `answers[i]`: undefined past the end of the list. */
  function AnswerAt(answers: seq<Json>, i: nat): Json {
    if i < |answers| then answers[i] else Null
  }

  /** Every solution's contest has scores (otherwise the destructuring of
      `contestData[solution.contest]` throws). */
  predicate Configured(sols: seq<Solution>, cd: map<Contest, ContestData>) {
    forall i :: 0 <= i < |sols| ==> sols[i].contest in cd
  }

  /** The forEach over the solutions, as a fold over a prefix. */
  function TallyOf(sols: seq<Solution>, answers: seq<Json>, cd: map<Contest, ContestData>): (t: Tally)
    requires Configured(sols, cd)
    ensures t.correct + t.blank <= |sols|
    decreases |sols|
  {
    if sols == [] then Tally(0, 0, 0.0)
    else
      var n := |sols| - 1;
      var t := TallyOf(sols[..n], answers, cd);
      var d := cd[sols[n].contest];
      match Judge(sols[n].answer, AnswerAt(answers, n))
      case Blank => Tally(t.correct, t.blank + 1, t.score + d.blankScore)
      case Correct => Tally(t.correct + 1, t.blank, t.score + d.correctScore)
      case Incorrect => t
  }

  /** `n` additions of `x`. */
  function Times(n: nat, x: real): real {
    if n == 0 then 0.0 else Times(n - 1, x) + x
  }

  lemma {:induction false} TimesIsProduct(n: nat, x: real)
    ensures Times(n, x) == n as real * x
  {
    if n > 0 {
      TimesIsProduct(n - 1, x);
      assert n as real * x == (n - 1) as real * x + x;
    }
  }

  /** When every problem belongs to contests scored alike, the score is
      `correct * correctScore + blank * blankScore` (products written as
      repeated sums; `TimesIsProduct` relates the two). */
  lemma {:induction false} UniformScore(sols: seq<Solution>, answers: seq<Json>, cd: map<Contest, ContestData>, d: ContestData)
    requires Configured(sols, cd)
    requires forall i :: 0 <= i < |sols| ==> cd[sols[i].contest] == d
    ensures var t := TallyOf(sols, answers, cd);
            t.score == Times(t.correct, d.correctScore) + Times(t.blank, d.blankScore)
    decreases |sols|
  {
    if sols != [] {
      var n := |sols| - 1;
      UniformScore(sols[..n], answers, cd, d);
      assert cd[sols[n].contest] == d;
      var t := TallyOf(sols[..n], answers, cd);
      match Judge(sols[n].answer, AnswerAt(answers, n))
      case Blank =>
        assert TallyOf(sols, answers, cd) == Tally(t.correct, t.blank + 1, t.score + d.blankScore);
        assert Times(t.blank + 1, d.blankScore) == Times(t.blank, d.blankScore) + d.blankScore;
      case Correct =>
        assert TallyOf(sols, answers, cd) == Tally(t.correct + 1, t.blank, t.score + d.correctScore);
        assert Times(t.correct + 1, d.correctScore) == Times(t.correct, d.correctScore) + d.correctScore;
      case Incorrect =>
        assert TallyOf(sols, answers, cd) == t;
    }
  }

  /** A user who answered nothing gets every problem blank. */
  lemma {:induction false} NoAnswersAllBlank(sols: seq<Solution>, cd: map<Contest, ContestData>)
    requires Configured(sols, cd)
    ensures TallyOf(sols, [], cd).correct == 0 && TallyOf(sols, [], cd).blank == |sols|
    decreases |sols|
  {
    if sols != [] {
      NoAnswersAllBlank(sols[..|sols| - 1], cd);
    }
  }

  /** Answering the first `k` solutions exactly (with values that are neither
      blank nor NaN nor lists), and nothing else, scores `k` correct. */
  lemma {:induction false} ExactAnswersAllCorrect(sols: seq<Solution>, answers: seq<Json>, cd: map<Contest, ContestData>)
    requires Configured(sols, cd)
    requires |answers| == |sols|
    requires forall i :: 0 <= i < |sols| ==>
               answers[i] == sols[i].answer && !IsBlank(answers[i]) && !answers[i].NaN? && !answers[i].Arr?
    ensures TallyOf(sols, answers, cd).correct == |sols|
    decreases |sols|
  {
    if sols != [] {
      var n := |sols| - 1;
      ExactAnswersAllCorrect(sols[..n], answers[..n], cd);
      TallyIgnoresLaterAnswers(sols[..n], answers, n, cd);
    }
  }

  /** Only the answers at the solutions' indices matter. */
  lemma {:induction false} TallyIgnoresLaterAnswers(sols: seq<Solution>, answers: seq<Json>, n: nat, cd: map<Contest, ContestData>)
    requires Configured(sols, cd)
    requires |sols| <= n <= |answers|
    ensures TallyOf(sols, answers, cd) == TallyOf(sols, answers[..n], cd)
    decreases |sols|
  {
    if sols != [] {
      TallyIgnoresLaterAnswers(sols[..|sols| - 1], answers, n, cd);
    }
  }

  /** Three default-scored problems — AIME answer 7, AIME accepting 2 or 3,
      AMC 8 answer "5" — against the answers 7, 2 and nothing: two correct, one
      blank, 10 + 10 + 1.5 points. */
  lemma WorkedExample()
    ensures var sols := [Solution("aime", Num(7.0)), Solution("aime", Arr([Num(2.0), Num(3.0)])), Solution("amc8", Str("5"))];
            Configured(sols, DefaultSettings().contestData)
            && TallyOf(sols, [Num(7.0), Num(2.0)], DefaultSettings().contestData) == Tally(2, 1, 21.5)
  {
    var sols := [Solution("aime", Num(7.0)), Solution("aime", Arr([Num(2.0), Num(3.0)])), Solution("amc8", Str("5"))];
    var cd := DefaultSettings().contestData;
    assert sols[..2][..1] == [Solution("aime", Num(7.0))];
    assert sols[..2][..1][..0] == [];
    assert Includes([Num(2.0), Num(3.0)], Num(2.0)) by {
      assert SameValueZero([Num(2.0), Num(3.0)][0], Num(2.0));
    }
    assert TallyOf(sols[..2][..1], [Num(7.0), Num(2.0)], cd) == Tally(1, 0, 10.0);
    assert TallyOf(sols[..2], [Num(7.0), Num(2.0)], cd) == Tally(2, 0, 20.0);
  }

  /** The same answers and responses with every problem scored 6 correct and
      1.5 blank (the AMC defaults): 6 + 6 + 1.5 points. */
  lemma WorkedExampleAmc()
    ensures var sols := [Solution("amc8", Num(7.0)), Solution("amc10", Arr([Num(2.0), Num(3.0)])), Solution("amc12", Str("5"))];
            Configured(sols, DefaultSettings().contestData)
            && TallyOf(sols, [Num(7.0), Num(2.0), Null], DefaultSettings().contestData) == Tally(2, 1, 13.5)
  {
    var sols := [Solution("amc8", Num(7.0)), Solution("amc10", Arr([Num(2.0), Num(3.0)])), Solution("amc12", Str("5"))];
    var answers := [Num(7.0), Num(2.0), Null];
    var cd := DefaultSettings().contestData;
    assert sols[..2][..1] == [Solution("amc8", Num(7.0))];
    assert sols[..2][..1][..0] == [];
    assert Includes([Num(2.0), Num(3.0)], Num(2.0)) by {
      assert SameValueZero([Num(2.0), Num(3.0)][0], Num(2.0));
    }
    assert TallyOf(sols[..2][..1], answers, cd) == Tally(1, 0, 6.0);
    assert TallyOf(sols[..2], answers, cd) == Tally(2, 0, 12.0);
  }

  // ---------------------------------------------------------------------------
  // One user

  /** The status compileResults leaves: a departed user is untouched; anyone
      else is `submitted`, and a user who never submitted is stamped with the
      end of the round. */
  function Retire(r: Response, data: RoundData): (r': Response)
    ensures r'.answers == r.answers
    ensures r.status.Disconnected? ==> r' == r
    ensures r.status.Submitted? ==> r' == r
    ensures r.status.Unsubmitted? ==> r'.status == Submitted(data.startTime + data.timeLimit)
  {
    if r.status.Unsubmitted? then r.(status := Submitted(data.startTime + data.timeLimit)) else r
  }

  /** How a response without an `answers` field is read. As written, reading an
      index of it throws; the corrected reading treats it as no answers. */
  datatype Reading = AsWritten | AbsentIsBlank

  /** The scored standing of one user still in the round, or None when scoring
      that user throws. */
  function ScoreUser(uid: Uid, r: Response, data: RoundData, sols: seq<Solution>,
                     cd: map<Contest, ContestData>, reading: Reading): (s: Option<Standing>)
    requires !r.status.Disconnected?
    ensures s.None? <==> !Configured(sols, cd) || (reading == AsWritten && r.answers.None? && sols != [])
    ensures s.Some? ==> s.value.userId == uid
    ensures s.Some? ==> s.value.timeUsed == Retire(r, data).status.finishTime - data.startTime
    ensures s.Some? && r.status.Unsubmitted? ==> s.value.timeUsed == data.timeLimit
    ensures s.Some? ==> s.value.correct + s.value.blank <= |sols|
    ensures s.Some? ==>
              var t := TallyOf(sols, if r.answers.Some? then r.answers.value else [], cd);
              s.value.correct == t.correct && s.value.blank == t.blank && s.value.score == t.score
  {
    if !Configured(sols, cd) then None
    else if reading == AsWritten && r.answers.None? && sols != [] then None
    else
      var t := TallyOf(sols, if r.answers.Some? then r.answers.value else [], cd);
      Some(Standing(uid, t.correct, t.blank, t.score, Retire(r, data).status.finishTime - data.startTime))
  }

  // ---------------------------------------------------------------------------
  // Every user

  predicate Active(e: Entry<Response>) {
    !e.val.status.Disconnected?
  }

  /** The ids of the users still in the round, in iteration order. */
  function ActiveIds(rs: ResponseMap): seq<Uid> {
    if rs == [] then [] else (if Active(rs[0]) then [rs[0].key] else []) + ActiveIds(rs[1..])
  }

  function Ids(st: seq<Standing>): (ids: seq<Uid>)
    ensures |ids| == |st|
    ensures forall j :: 0 <= j < |st| ==> ids[j] == st[j].userId
  {
    if st == [] then [] else [st[0].userId] + Ids(st[1..])
  }

  /** Scoring the whole map throws when a user still in the round cannot be
      scored: the round data is missing, a solution's contest has no scores, or
      (as written) the user's record has no answers. */
  predicate ScoringThrows(rs: ResponseMap, data: Option<RoundData>, sols: seq<Solution>,
                          cd: map<Contest, ContestData>, reading: Reading) {
    exists i :: 0 <= i < |rs| && UserThrows(rs[i], data, sols, cd, reading)
  }

  datatype Scored = Scored(responses: ResponseMap, standings: seq<Standing>)

  /** Whether scoring user `e` throws. */
  predicate UserThrows(e: Entry<Response>, data: Option<RoundData>, sols: seq<Solution>,
                       cd: map<Contest, ContestData>, reading: Reading) {
    Active(e) && (data.None? || !Configured(sols, cd) || (reading == AsWritten && e.val.answers.None? && sols != []))
  }

  lemma ScoringThrowsUnfold(rs: ResponseMap, data: Option<RoundData>, sols: seq<Solution>,
                            cd: map<Contest, ContestData>, reading: Reading)
    requires rs != []
    ensures ScoringThrows(rs, data, sols, cd, reading) <==>
              UserThrows(rs[0], data, sols, cd, reading) || ScoringThrows(rs[1..], data, sols, cd, reading)
  {
    if ScoringThrows(rs[1..], data, sols, cd, reading) {
      var i :| 0 <= i < |rs[1..]| && UserThrows(rs[1..][i], data, sols, cd, reading);
      assert rs[i + 1] == rs[1..][i];
    }
    if ScoringThrows(rs, data, sols, cd, reading) && !UserThrows(rs[0], data, sols, cd, reading) {
      var i :| 0 <= i < |rs| && UserThrows(rs[i], data, sols, cd, reading);
      assert rs[1..][i - 1] == rs[i];
    }
  }

  /** `s` is the standing scoring gives some user of `rs` still in the round. */
  ghost predicate ScoredAs(rs: ResponseMap, s: Standing, data: RoundData, sols: seq<Solution>,
                           cd: map<Contest, ContestData>, reading: Reading) {
    exists i :: 0 <= i < |rs| && Active(rs[i]) && ScoreUser(rs[i].key, rs[i].val, data, sols, cd, reading) == Some(s)
  }

  lemma ScoredAsTail(rs: ResponseMap, s: Standing, data: RoundData, sols: seq<Solution>,
                     cd: map<Contest, ContestData>, reading: Reading)
    requires rs != [] && ScoredAs(rs[1..], s, data, sols, cd, reading)
    ensures ScoredAs(rs, s, data, sols, cd, reading)
  {
    var i :| 0 <= i < |rs[1..]| && Active(rs[1..][i])
             && ScoreUser(rs[1..][i].key, rs[1..][i].val, data, sols, cd, reading) == Some(s);
    assert rs[i + 1] == rs[1..][i];
  }

  /** The `for (const userId in responses)` loop: each departed user is
      skipped; every other user is retired and scored, in iteration order. */
  function ScoreAll(rs: ResponseMap, data: Option<RoundData>, sols: seq<Solution>,
                    cd: map<Contest, ContestData>, reading: Reading): (r: Option<Scored>)
    ensures r.None? <==> ScoringThrows(rs, data, sols, cd, reading)
    ensures r.Some? ==> Keys(r.value.responses) == Keys(rs)
    ensures r.Some? ==> forall i :: 0 <= i < |rs| ==>
              r.value.responses[i].val == if Active(rs[i]) then Retire(rs[i].val, data.value) else rs[i].val
    ensures r.Some? ==> Ids(r.value.standings) == ActiveIds(rs)
    decreases |rs|
  {
    if rs == [] then Some(Scored([], []))
    else
      var e := rs[0];
      ScoringThrowsUnfold(rs, data, sols, cd, reading);
      match ScoreAll(rs[1..], data, sols, cd, reading)
      case None => None
      case Some(rest) =>
        if !Active(e) then
          Some(Scored([e] + rest.responses, rest.standings))
        else if data.None? then None
        else
          match ScoreUser(e.key, e.val, data.value, sols, cd, reading)
          case None => None
          case Some(st) => Some(Scored([Entry(e.key, Retire(e.val, data.value))] + rest.responses, [st] + rest.standings))
  }

  /** Every standing the loop produces is the score of one user still in the
      round. */
  lemma {:induction false} ScoreAllScores(rs: ResponseMap, data: RoundData, sols: seq<Solution>,
                                          cd: map<Contest, ContestData>, reading: Reading)
    requires ScoreAll(rs, Some(data), sols, cd, reading).Some?
    ensures forall s :: s in ScoreAll(rs, Some(data), sols, cd, reading).value.standings ==>
              ScoredAs(rs, s, data, sols, cd, reading)
    decreases |rs|
  {
    if rs != [] {
      var rest := ScoreAll(rs[1..], Some(data), sols, cd, reading);
      assert rest.Some?;
      ScoreAllScores(rs[1..], data, sols, cd, reading);
      var st := ScoreAll(rs, Some(data), sols, cd, reading).value.standings;
      forall s | s in st ensures ScoredAs(rs, s, data, sols, cd, reading) {
        if s in rest.value.standings {
          ScoredAsTail(rs, s, data, sols, cd, reading);
        } else {
          assert Active(rs[0]) && ScoreUser(rs[0].key, rs[0].val, data, sols, cd, reading) == Some(s);
        }
      }
    }
  }

  // ---------------------------------------------------------------------------
  // Ranking

  /** The comparator's `compare(a, b) <= 0`: `a` may stay ahead of `b`. */
  predicate Ahead(a: Standing, b: Standing) {
    if a.score == b.score then a.timeUsed - b.timeUsed <= 0 else b.score - a.score <= 0.0
  }

  /** The comparator ranks by score, highest first, and breaks ties by time
      used, least first. */
  lemma AheadMeansRanked(a: Standing, b: Standing)
    ensures Ahead(a, b) <==> a.score > b.score || (a.score == b.score && a.timeUsed <= b.timeUsed)
  {
  }

  lemma AheadIsTotalPreorder()
    ensures TotalPreorder(Ahead)
  {
    forall a: Standing, b: Standing, c: Standing | Ahead(a, b) && Ahead(b, c)
      ensures Ahead(a, c)
    {
      AheadMeansRanked(a, b);
      AheadMeansRanked(b, c);
      AheadMeansRanked(a, c);
    }
  }

  /** `standings.sort(compare)`. */
  function Rank(st: seq<Standing>): (r: seq<Standing>)
    ensures |r| == |st| && multiset(r) == multiset(st)
    ensures forall i, j :: 0 <= i < j < |r| ==>
              r[i].score > r[j].score || (r[i].score == r[j].score && r[i].timeUsed <= r[j].timeUsed)
  {
    AheadIsTotalPreorder();
    var r := Sort(st, Ahead);
    assert forall i, j :: 0 <= i < j < |r| ==> Ahead(r[i], r[j]);
    r
  }

  /** Users with the same score and time used stay in iteration order. */
  lemma RankIsStable(st: seq<Standing>, c: Standing)
    ensures Ties(Rank(st), c, Ahead) == Ties(st, c, Ahead)
  {
    AheadIsTotalPreorder();
    SortIsStable(st, c, Ahead);
  }

  /** With equal scores, the faster user ranks first, whatever the input order. */
  lemma FasterRanksFirst(uid1: Uid, uid2: Uid)
    ensures var slow := Standing(uid1, 2, 0, 12.0, 2000);
            var fast := Standing(uid2, 2, 0, 12.0, 1000);
            Rank([slow, fast]) == [fast, slow]
  {
    var slow := Standing(uid1, 2, 0, 12.0, 2000);
    var fast := Standing(uid2, 2, 0, 12.0, 1000);
    var r := Rank([slow, fast]);
    assert multiset(r) == multiset{slow, fast};
    assert slow in multiset(r) && fast in multiset(r);
    assert r[0] == fast;
  }

  // ---------------------------------------------------------------------------
  // The whole compilation

  datatype CompileOutcome =
    | NoSettings            // no contest data: returns before any transaction
    | Declined              // no game data, solutions or responses: the value is kept
    | Threw                 // the transaction function threw: nothing is written
    | Compiled(gameData: GameData)

  /** compileResults' read of `gameSettings/<room>/contestData` and its
      transaction on `gameData/<room>`. */
  function Compile(contestData: Option<map<Contest, ContestData>>, g: Option<GameData>,
                   endReason: string, reading: Reading): (o: CompileOutcome)
    ensures o == NoSettings <==> contestData.None?
    ensures o == Declined <==> (contestData.Some? &&
              (g.None? || g.value.results.None? || g.value.results.value.answers.None? || g.value.responses == []))
    ensures o == Threw <==> (contestData.Some? && g.Some? && g.value.results.Some? && g.value.results.value.answers.Some?
              && g.value.responses != []
              && ScoringThrows(g.value.responses, g.value.data, g.value.results.value.answers.value, contestData.value, reading))
    ensures o.Compiled? ==>
              var g' := o.gameData;
              && g'.data == g.value.data
              && g'.results.Some?
              && g'.results.value.answers == g.value.results.value.answers
              && g'.results.value.endReason == Some(endReason)
              && Keys(g'.responses) == Keys(g.value.responses)
              && AllDone(g'.responses)
              && (g'.results.value.standings.None? <==> ActiveIds(g.value.responses) == [])
    ensures o.Compiled? && o.gameData.results.value.standings.Some? ==>
              var st := o.gameData.results.value.standings.value;
              && multiset(Ids(st)) == multiset(ActiveIds(g.value.responses))
              && forall i, j :: 0 <= i < j < |st| ==>
                   st[i].score > st[j].score || (st[i].score == st[j].score && st[i].timeUsed <= st[j].timeUsed)
    ensures o.Compiled? && g.value.data.Some? && o.gameData.results.value.standings.Some? ==>
              forall s :: s in o.gameData.results.value.standings.value ==>
                ScoredAs(g.value.responses, s, g.value.data.value, g.value.results.value.answers.value, contestData.value, reading)
  {
    if contestData.None? then NoSettings
    else if g.None? || g.value.results.None? || g.value.results.value.answers.None? || g.value.responses == [] then Declined
    else
      var v := g.value;
      var sols := v.results.value.answers.value;
      match ScoreAll(v.responses, v.data, sols, contestData.value, reading)
      case None => Threw
      case Some(scored) =>
        var standings := Rank(scored.standings);
        RetiredAreDone(v.responses, v.data, sols, contestData.value, reading);
        IdsOfPermutation(scored.standings, standings);
        assert v.data.Some? ==> forall s :: s in standings ==>
                 ScoredAs(v.responses, s, v.data.value, sols, contestData.value, reading) by {
          if v.data.Some? {
            RankedAreScored(v.responses, v.data.value, sols, contestData.value, reading);
          }
        }
        assert |Ids(standings)| == |ActiveIds(v.responses)| by {
          assert |multiset(Ids(standings))| == |multiset(ActiveIds(v.responses))|;
        }
        // `results.standings = standings`; an empty list is not kept by the store
        Compiled(v.(responses := scored.responses,
                    results := Some(Results(Some(sols), if standings == [] then None else Some(standings), Some(endReason)))))
  }

  /** After scoring, nobody is left `unsubmitted`. */
  lemma RetiredAreDone(rs: ResponseMap, data: Option<RoundData>, sols: seq<Solution>,
                       cd: map<Contest, ContestData>, reading: Reading)
    requires ScoreAll(rs, data, sols, cd, reading).Some?
    ensures AllDone(ScoreAll(rs, data, sols, cd, reading).value.responses)
  {
    var scored := ScoreAll(rs, data, sols, cd, reading).value;
    forall i | 0 <= i < |scored.responses| ensures Done(scored.responses[i].val) {
      assert |Keys(scored.responses)| == |Keys(rs)|;
    }
  }

  /** Ranking keeps every standing the score of some user still in the round. */
  lemma RankedAreScored(rs: ResponseMap, data: RoundData, sols: seq<Solution>,
                        cd: map<Contest, ContestData>, reading: Reading)
    requires ScoreAll(rs, Some(data), sols, cd, reading).Some?
    ensures forall s :: s in Rank(ScoreAll(rs, Some(data), sols, cd, reading).value.standings) ==>
              ScoredAs(rs, s, data, sols, cd, reading)
  {
    var scored := ScoreAll(rs, Some(data), sols, cd, reading).value;
    ScoreAllScores(rs, data, sols, cd, reading);
    assert forall s :: s in Rank(scored.standings) ==> s in multiset(scored.standings);
  }

  lemma {:induction false} IdsOfPermutation(a: seq<Standing>, b: seq<Standing>)
    requires multiset(a) == multiset(b)
    ensures multiset(Ids(a)) == multiset(Ids(b))
    decreases |a|
  {
    if a == [] {
      assert |b| == |multiset(b)| == 0;
    } else {
      var x := a[0];
      assert x in multiset(b);
      var k :| 0 <= k < |b| && b[k] == x;
      var rest := RemoveAt(b, k);
      MultisetTail(a);
      IdsOfPermutation(a[1..], rest);
      IdsOfRemoveAt(b, k);
      assert Ids(a) == [x.userId] + Ids(a[1..]);
    }
  }

  /** `s` without its `k`-th element. */
  function RemoveAt<T>(s: seq<T>, k: nat): (r: seq<T>)
    requires k < |s|
    ensures multiset(r) == multiset(s) - multiset{s[k]}
  {
    assert s == s[..k] + [s[k]] + s[k + 1..];
    s[..k] + s[k + 1..]
  }

  lemma {:induction false} IdsOfRemoveAt(s: seq<Standing>, k: nat)
    requires k < |s|
    ensures multiset(Ids(s)) == multiset(Ids(RemoveAt(s, k))) + multiset{s[k].userId}
  {
    var front, back := s[..k], s[k + 1..];
    var mid := [s[k]] + back;
    assert s == front + mid;
    IdsOfConcat(front, mid);
    IdsOfConcat([s[k]], back);
    IdsOfConcat(front, back);
    var f, m, b := Ids(front), Ids(mid), Ids(back);
    assert m == [s[k].userId] + b;
    calc {
      multiset(Ids(s));
      multiset(f + m);
      multiset(f) + multiset(m);
      multiset(f) + multiset(b) + multiset{s[k].userId};
      multiset(f + b) + multiset{s[k].userId};
    }
  }

  lemma {:induction false} IdsOfConcat(a: seq<Standing>, b: seq<Standing>)
    ensures Ids(a + b) == Ids(a) + Ids(b)
  {
    var l := Ids(a + b);
    assert |l| == |Ids(a) + Ids(b)|;
    forall j | 0 <= j < |l| ensures l[j] == (Ids(a) + Ids(b))[j] {
      if j < |a| { assert (a + b)[j] == a[j]; } else { assert (a + b)[j] == b[j - |a|]; }
    }
  }

  // ---------------------------------------------------------------------------
  // A record without answers

  /** A user who joins while a round is running gets a record without answers
      (the join write keeps an earlier record's fields and adds none). If that
      user submits nothing, compileResults as written reads an index of the
      missing list and throws: the round's results are never written and the
      room stays in `compiling-results`. */
  lemma MidRoundJoinThrows(rs: ResponseMap, uid: Uid, sols: seq<Solution>, data: RoundData,
                           cd: map<Contest, ContestData>, endReason: string)
    requires rs != [] && !HasKey(rs, uid)
    requires sols != []
    ensures var g := GameData(Some(Results(Some(sols), None, None)), JoinResponses(rs, uid), Some(data));
            Compile(Some(cd), Some(g), endReason, AsWritten) == Threw
  {
    var rs' := JoinResponses(rs, uid);
    JoinerThrows(rs, uid, sols, data, cd);
    assert rs' != [];
  }

  /** The joiner's record, which has no answers, is one that scoring as written cannot read. */
  lemma JoinerThrows(rs: ResponseMap, uid: Uid, sols: seq<Solution>, data: RoundData,
                     cd: map<Contest, ContestData>)
    requires rs != [] && !HasKey(rs, uid)
    requires sols != []
    ensures ScoringThrows(JoinResponses(rs, uid), Some(data), sols, cd, AsWritten)
  {
    var rs' := JoinResponses(rs, uid);
    var joined := Get(rs', uid).value;
    assert joined == Response(Unsubmitted, None);
    assert Entry(uid, joined) in rs';
    var i :| 0 <= i < |rs'| && rs'[i] == Entry(uid, joined);
    assert UserThrows(rs'[i], Some(data), sols, cd, AsWritten);
  }

  /** Reading a missing answers list as empty, scoring only throws when the
      round data or a contest's scores are missing. */
  lemma CorrectedReadingOnlyThrowsOnMissingData(rs: ResponseMap, data: Option<RoundData>, sols: seq<Solution>,
                                                cd: map<Contest, ContestData>)
    ensures ScoringThrows(rs, data, sols, cd, AbsentIsBlank) <==>
              (exists i :: 0 <= i < |rs| && Active(rs[i])) && (data.None? || !Configured(sols, cd))
  {
    if ScoringThrows(rs, data, sols, cd, AbsentIsBlank) {
      var i :| 0 <= i < |rs| && UserThrows(rs[i], data, sols, cd, AbsentIsBlank);
    }
    if (exists i :: 0 <= i < |rs| && Active(rs[i])) && (data.None? || !Configured(sols, cd)) {
      var i :| 0 <= i < |rs| && Active(rs[i]);
      assert UserThrows(rs[i], data, sols, cd, AbsentIsBlank);
    }
  }

  /** With the corrected reading the same mid-round joiner is compiled, scoring
      every problem blank. */
  lemma MidRoundJoinCompiled(rs: ResponseMap, uid: Uid, sols: seq<Solution>, data: RoundData,
                             cd: map<Contest, ContestData>, endReason: string)
    requires rs != [] && !HasKey(rs, uid)
    requires Configured(sols, cd)
    ensures var g := GameData(Some(Results(Some(sols), None, None)), JoinResponses(rs, uid), Some(data));
            Compile(Some(cd), Some(g), endReason, AbsentIsBlank).Compiled?
    ensures var s := ScoreUser(uid, Response(Unsubmitted, None), data, sols, cd, AbsentIsBlank);
            s.Some? && s.value.correct == 0 && s.value.blank == |sols| && s.value.timeUsed == data.timeLimit
  {
    var rs' := JoinResponses(rs, uid);
    JoinerScored(rs, uid, sols, data, cd);
    assert rs' != [];
    JoinerAllBlank(uid, sols, data, cd);
  }

  /** With the corrected reading, joining does not make scoring throw. */
  lemma JoinerScored(rs: ResponseMap, uid: Uid, sols: seq<Solution>, data: RoundData,
                     cd: map<Contest, ContestData>)
    requires Configured(sols, cd)
    ensures !ScoringThrows(JoinResponses(rs, uid), Some(data), sols, cd, AbsentIsBlank)
  {
    CorrectedReadingOnlyThrowsOnMissingData(JoinResponses(rs, uid), Some(data), sols, cd);
  }

  /** A record without answers scores every problem blank and the whole round's time. */
  lemma JoinerAllBlank(uid: Uid, sols: seq<Solution>, data: RoundData, cd: map<Contest, ContestData>)
    requires Configured(sols, cd)
    ensures var s := ScoreUser(uid, Response(Unsubmitted, None), data, sols, cd, AbsentIsBlank);
            s.Some? && s.value.correct == 0 && s.value.blank == |sols| && s.value.timeUsed == data.timeLimit
  {
    NoAnswersAllBlank(sols, cd);
  }
}

=== FILE: selection.dfy ===
/** Problem selection for a round (core.js, the version the server imports):
    a Fisher-Yates shuffle of each selected contest's cached title list, a
    prefix of `problemCount` titles per contest, one detail entry per
    requested problem, and a fetch of every drawn title in which a failure
    becomes `null` at its position.

    `Math.random` is an index oracle `pick`; the libraries that parse titles,
    fetch pages and answers, estimate difficulty and render markup are the
    function-valued fields of `Services`. */
module Selection {
  import opened Js
  import opened Settings

  type Title = string

  // ---------------------------------------------------------------------------
  // randomArray

  /** Exchange two positions and leave the rest alone. */
  function Swap<T>(s: seq<T>, i: nat, j: nat): (r: seq<T>)
    requires i < |s| && j < |s|
    ensures |r| == |s|
    ensures r[i] == s[j] && r[j] == s[i]
    ensures forall k :: 0 <= k < |s| && k != i && k != j ==> r[k] == s[k]
  {
    s[i := s[j]][j := s[i]]
  }

  /** The draw at step `i`: `Math.floor(Math.random() * (i + 1))`, always in `[0, i]`. */
  function Draw(pick: nat -> nat, i: nat): (j: nat)
    ensures j <= i
  {
    pick(i) % (i + 1)
  }

  /** The array when the loop counter of `randomArray` is `i`: steps
      `|a| - 1`, ..., `i + 1` have run. */
  function ShuffledAbove<T>(a: seq<T>, i: int, pick: nat -> nat): (r: seq<T>)
    requires -1 <= i
    ensures |r| == |a|
    decreases |a| - i
  {
    if i >= |a| - 1 then a else Swap(ShuffledAbove(a, i + 1, pick), i + 1, Draw(pick, i + 1))
  }

  /** The order `randomArray` leaves an array in, given the random draws. */
  function Shuffle<T>(a: seq<T>, pick: nat -> nat): (r: seq<T>)
    ensures |r| == |a|
  {
    ShuffledAbove(a, 0, pick)
  }

  /** Every step exchanges two elements, so the steps run so far permute the array. */
  lemma {:induction false} ShuffledAbovePermutes<T>(a: seq<T>, i: int, pick: nat -> nat)
    requires -1 <= i
    ensures multiset(ShuffledAbove(a, i, pick)) == multiset(a)
    decreases |a| - i
  {
    if i < |a| - 1 {
      ShuffledAbovePermutes(a, i + 1, pick);
      var s := ShuffledAbove(a, i + 1, pick);
      var j := Draw(pick, i + 1);
      assert s[i + 1 := s[j]][j := s[i + 1]] == Swap(s, i + 1, j);
      assert multiset(s[i + 1 := s[j]][j := s[i + 1]]) == multiset(s);
    }
  }

  /** The shuffle is a permutation, whatever the draws. */
  lemma ShufflePermutes<T>(a: seq<T>, pick: nat -> nat)
    ensures multiset(Shuffle(a, pick)) == multiset(a)
  {
    ShuffledAbovePermutes(a, 0, pick);
  }

  /** `randomArray`: for `i` from the last index down to 1, exchange element
      `i` with the drawn index `j <= i`. The result is a permutation of the input. */
  method RandomArray<T>(a: seq<T>, pick: nat -> nat) returns (r: seq<T>)
    ensures r == Shuffle(a, pick)
    ensures |r| == |a| && multiset(r) == multiset(a)
  {
    r := a;
    var i := |a| - 1;
    while i > 0
      invariant -1 <= i < |a|
      invariant r == ShuffledAbove(a, i, pick)
    {
      var j := Draw(pick, i);
      var temp := r[i];
      r := r[i := r[j]][j := temp];
      i := i - 1;
    }
    ShufflePermutes(a, pick);
  }

  // ---------------------------------------------------------------------------
  // Drawing titles and details

  datatype AnswerType = Aime | Amc

  /** `contest == "aime" ? "aime" : "amc"`. */
  function AnswerTypeOf(contest: Contest): AnswerType {
    if contest == "aime" then Aime else Amc
  }

  /** A `problemDetails` entry. */
  datatype Detail = Detail(contest: Contest, answerType: AnswerType)

  /** What one selected contest contributes: its drawn titles and the number of
      detail entries it pushes (its `problemCount`). */
  datatype Batch = Batch(contest: Contest, titles: seq<Title>, count: int)

  /** Why problem generation throws: `Object.entries` of an absent
      `contestSelection` (the store keeps no empty object, so an empty selection
      reads back as absent), `problemCache[contest].slice` on a contest with no
      cached pool, `details.problemCount` on a contest with no settings, or
      (core.ts only) destructuring the detail entry past the end of
      `problemDetails`. */
  datatype SelectError = NoSelection | NoPool(contest: Contest) | NoContestData(contest: Contest) | MissingDetail(index: nat)

  /** The contests of the entries from `k` on whose flag is set, in entry order. */
  function SelectedContests(choices: seq<Choice>, k: nat): seq<Contest>
    requires k <= |choices|
    decreases |choices| - k
  {
    if k == |choices| then []
    else (if choices[k].selected then [choices[k].contest] else []) + SelectedContests(choices, k + 1)
  }

  function BatchContests(bs: seq<Batch>): (cs: seq<Contest>)
    ensures |cs| == |bs|
    ensures forall i :: 0 <= i < |bs| ==> cs[i] == bs[i].contest
  {
    if bs == [] then [] else [bs[0].contest] + BatchContests(bs[1..])
  }

  /** The forEach over `Object.entries(contestSelection)`; `pick(k, _)` is the
      randomness of the `k`-th entry's shuffle. */
  function SelectFrom(choices: seq<Choice>, k: nat, contestData: map<Contest, ContestData>,
                      pools: map<Contest, seq<Title>>, pick: (nat, nat) -> nat): (r: Result<seq<Batch>, SelectError>)
    requires k <= |choices|
    ensures r.Ok? ==> |r.value| <= |choices| - k
    ensures r.Err? ==> r.error.NoPool? || r.error.NoContestData?
    ensures r.Ok? ==> BatchContests(r.value) == SelectedContests(choices, k)
    ensures r.Ok? ==> forall b :: b in r.value ==>
              && b.contest in pools && b.contest in contestData
              && b.count == contestData[b.contest].problemCount
              && multiset(b.titles) <= multiset(pools[b.contest])
              && (0 <= b.count ==> |b.titles| == if b.count <= |pools[b.contest]| then b.count else |pools[b.contest]|)
    decreases |choices| - k
  {
    if k == |choices| then Ok([])
    else
      var c := choices[k];
      if !c.selected then SelectFrom(choices, k + 1, contestData, pools, pick)
      else if c.contest !in pools then Err(NoPool(c.contest))
      else if c.contest !in contestData then Err(NoContestData(c.contest))
      else
        var n := contestData[c.contest].problemCount;
        var shuffled := Shuffle(pools[c.contest], (i: nat) => pick(k, i));
        var titles := SlicePrefix(shuffled, n);
        assert multiset(titles) <= multiset(pools[c.contest]) by {
          assert shuffled == titles + shuffled[|titles|..];
          ShufflePermutes(pools[c.contest], (i: nat) => pick(k, i));
        }
        match SelectFrom(choices, k + 1, contestData, pools, pick)
        case Err(e) => Err(e)
        case Ok(rest) =>
          var bs := [Batch(c.contest, titles, n)] + rest;
          assert bs[1..] == rest;
          Ok(bs)
  }

  /** `Object.entries(contestSelection).forEach(...)`: an empty selection is an
      absent one, and `Object.entries(undefined)` throws. */
  function Select(g: GameSettings, pools: map<Contest, seq<Title>>, pick: (nat, nat) -> nat): Result<seq<Batch>, SelectError> {
    if g.selection == [] then Err(NoSelection)
    else SelectFrom(g.selection, 0, g.contestData, pools, pick)
  }

  /** `count` copies of `x` (a `for (i = 0; i < count; ++i)` push loop). */
  function Repeat<T>(x: T, count: int): (r: seq<T>)
    ensures |r| == if count < 0 then 0 else count
    ensures forall i :: 0 <= i < |r| ==> r[i] == x
    decreases count
  {
    if count <= 0 then [] else [x] + Repeat(x, count - 1)
  }

  /** `generatedProblems.flat()`: the titles, batch after batch. */
  function Drawn(bs: seq<Batch>): seq<Title> {
    if bs == [] then [] else bs[0].titles + Drawn(bs[1..])
  }

  /** `problemDetails`: `count` entries per batch. */
  function Details(bs: seq<Batch>): seq<Detail> {
    if bs == [] then []
    else Repeat(Detail(bs[0].contest, AnswerTypeOf(bs[0].contest)), bs[0].count) + Details(bs[1..])
  }

  /** The contest each drawn title actually came from (not computed by the
      source; it is what alignment is measured against). */
  function Origins(bs: seq<Batch>): (os: seq<Contest>)
    ensures |os| == |Drawn(bs)|
  {
    if bs == [] then [] else Repeat(bs[0].contest, |bs[0].titles|) + Origins(bs[1..])
  }

  /** A batch is full when it drew as many titles as it pushed details. */
  predicate Full(b: Batch) {
    0 <= b.count && |b.titles| == b.count
  }

  /** When every batch is full, the `i`-th detail entry describes the `i`-th
      drawn title: same contest, and answer type `aime` exactly for AIME titles. */
  lemma {:induction false} DetailsAlign(bs: seq<Batch>)
    requires forall b :: b in bs ==> Full(b)
    ensures |Details(bs)| == |Drawn(bs)|
    ensures forall i :: 0 <= i < |Drawn(bs)| ==>
              Details(bs)[i].contest == Origins(bs)[i]
              && Details(bs)[i].answerType == AnswerTypeOf(Origins(bs)[i])
  {
    if bs != [] {
      DetailsAlign(bs[1..]);
      var head := Repeat(Detail(bs[0].contest, AnswerTypeOf(bs[0].contest)), bs[0].count);
      var origin := Repeat(bs[0].contest, |bs[0].titles|);
      assert Details(bs) == head + Details(bs[1..]);
      assert Origins(bs) == origin + Origins(bs[1..]);
      assert bs[0] in bs;
      assert |head| == |origin|;
      forall i | 0 <= i < |Drawn(bs)|
        ensures Details(bs)[i].contest == Origins(bs)[i]
        ensures Details(bs)[i].answerType == AnswerTypeOf(Origins(bs)[i])
      {
        if i >= |head| {
          assert Details(bs)[i] == Details(bs[1..])[i - |head|];
          assert Origins(bs)[i] == Origins(bs[1..])[i - |head|];
        }
      }
    }
  }

  /** Selection draws, for each selected contest in entry order, a prefix of a
      permutation of its pool, `problemCount` titles long when the pool is big
      enough. */
  lemma SelectDrawsPrefixes(choices: seq<Choice>, k: nat, contestData: map<Contest, ContestData>,
                            pools: map<Contest, seq<Title>>, pick: (nat, nat) -> nat)
    requires k < |choices| && choices[k].selected
    requires choices[k].contest in pools && choices[k].contest in contestData
    requires SelectFrom(choices, k, contestData, pools, pick).Ok?
    ensures var b := SelectFrom(choices, k, contestData, pools, pick).value[0];
            var shuffled := Shuffle(pools[choices[k].contest], (i: nat) => pick(k, i));
            && b.contest == choices[k].contest
            && multiset(shuffled) == multiset(pools[b.contest])
            && b.titles == SlicePrefix(shuffled, b.count)
            && (0 <= b.count <= |pools[b.contest]| ==> |b.titles| == b.count)
  {
    ShufflePermutes(pools[choices[k].contest], (i: nat) => pick(k, i));
  }

  /** An unselected contest contributes nothing. */
  lemma UnselectedContributesNothing(choices: seq<Choice>, k: nat, contestData: map<Contest, ContestData>,
                                     pools: map<Contest, seq<Title>>, pick: (nat, nat) -> nat)
    requires k < |choices| && !choices[k].selected
    ensures SelectFrom(choices, k, contestData, pools, pick) == SelectFrom(choices, k + 1, contestData, pools, pick)
  {
  }

  /** A selected contest without a cached pool or without settings. */
  predicate Unconfigured(c: Choice, contestData: map<Contest, ContestData>, pools: map<Contest, seq<Title>>) {
    c.selected && (c.contest !in pools || c.contest !in contestData)
  }

  /** Selection throws exactly when some selected contest has no cached pool or
      no settings; unselected contests are never looked up. */
  lemma {:induction false} SelectFailsIffUnconfigured(choices: seq<Choice>, k: nat, contestData: map<Contest, ContestData>,
                                                     pools: map<Contest, seq<Title>>, pick: (nat, nat) -> nat)
    requires k <= |choices|
    ensures SelectFrom(choices, k, contestData, pools, pick).Err? <==>
              exists i :: k <= i < |choices| && Unconfigured(choices[i], contestData, pools)
    decreases |choices| - k
  {
    if k < |choices| {
      SelectFailsIffUnconfigured(choices, k + 1, contestData, pools, pick);
      var r := SelectFrom(choices, k, contestData, pools, pick);
      var rest := SelectFrom(choices, k + 1, contestData, pools, pick);
      if Unconfigured(choices[k], contestData, pools) {
        assert r.Err?;
      } else {
        assert r.Err? <==> rest.Err?;
        assert forall i :: k <= i < |choices| && Unconfigured(choices[i], contestData, pools) ==> k + 1 <= i;
      }
    }
  }

  /** Generation's selection throws exactly when the selection is empty (absent
      in the store) or some selected contest has no cached pool or no settings;
      an empty selection is the only cause of `NoSelection`. */
  lemma SelectFailsIff(g: GameSettings, pools: map<Contest, seq<Title>>, pick: (nat, nat) -> nat)
    ensures Select(g, pools, pick).Err? <==>
              g.selection == [] || exists i :: 0 <= i < |g.selection| && Unconfigured(g.selection[i], g.contestData, pools)
    ensures Select(g, pools, pick) == Err(NoSelection) <==> g.selection == []
  {
    SelectFailsIffUnconfigured(g.selection, 0, g.contestData, pools, pick);
  }

  /** A short pool breaks alignment: with AMC 8 asked for two problems but
      holding only one, the first AIME title is described as AMC 8. */
  lemma ShortPoolMisaligns(aime1: Title, aime2: Title, amc: Title, pick: (nat, nat) -> nat)
    ensures var bs := [Batch("amc8", [amc], 2), Batch("aime", [aime1, aime2], 2)];
            Origins(bs)[1] == "aime" && Details(bs)[1] == Detail("amc8", Amc)
  {
    var bs := [Batch("amc8", [amc], 2), Batch("aime", [aime1, aime2], 2)];
    assert bs[1..] == [Batch("aime", [aime1, aime2], 2)];
    assert bs[1..][1..] == [];
    assert Repeat(Detail("amc8", Amc), 2) == [Detail("amc8", Amc), Detail("amc8", Amc)];
  }

  // ---------------------------------------------------------------------------
  // Fetching problems

  /** What `parseTitle` extracts from a page title. */
  datatype TitleParts = TitleParts(year: string, contestName: string, problemIndex: string)

  /** A fulfilled `fetchProblemAnswer`: one answer, or a list of accepted answers. */
  datatype RawAnswer = One(text: string) | Many(texts: seq<string>)

  /** The external libraries. `wikiProblem` is the problem text of a fulfilled
      `parseWikiProblem`, None when it rejects; `fetchAnswer` is None when it
      rejects; `render` is KaTeX rendering followed by sanitising without links. */
  datatype Services = Services(
    parseTitle: (Contest, Title) -> TitleParts,
    wikiProblem: Title -> Option<string>,
    fetchAnswer: TitleParts -> Option<RawAnswer>,
    estimateDifficulty: (Contest, TitleParts) -> real,
    render: string -> string)

  /** A problem as the round uses it. */
  datatype Problem = Problem(
    contest: Contest,
    answerType: AnswerType,
    answer: Json,
    difficulty: real,
    metadata: TitleParts,
    problemTitle: string,
    body: string)

  predicate RawTruthy(a: RawAnswer) {
    a.Many? || a.text != ""
  }

  /** AIME answers are integers: each text goes through `parseInt`. AMC answers
      are kept as text. */
  function ConvertAnswer(raw: RawAnswer, t: AnswerType): (v: Json)
    ensures t == Amc && raw.One? ==> v == Str(raw.text)
    ensures t == Aime && raw.One? ==> v == ParseInt(raw.text)
    ensures raw.Many? ==> v.Arr? && |v.items| == |raw.texts|
    ensures raw.Many? ==> forall i :: 0 <= i < |raw.texts| ==>
              v.items[i] == if t == Aime then ParseInt(raw.texts[i]) else Str(raw.texts[i])
  {
    match raw
    case One(text) => if t == Aime then ParseInt(text) else Str(text)
    case Many(texts) =>
      Arr(seq(|texts|, i requires 0 <= i < |texts| => if t == Aime then ParseInt(texts[i]) else Str(texts[i])))
  }

  /** An AIME answer published as the decimal text of `n` is stored as the number `n`. */
  lemma AimeAnswerIsNumber(n: nat)
    ensures ConvertAnswer(One(Decimal(n)), Aime) == Num(n as real)
  {
    ParseIntDecimal(n);
  }

  /** `${year} ${contestName} #${problemIndex}`. */
  function FormatTitle(p: TitleParts): string {
    p.year + " " + p.contestName + " #" + p.problemIndex
  }

  /** `fetchProblem` followed by the final map: null unless the detail entry
      exists, the problem page resolves with non-empty text and the answer
      resolves to a truthy value. */
  function Resolve(title: Title, detail: Option<Detail>, svc: Services): (p: Option<Problem>)
    ensures p.Some? <==>
              && detail.Some?
              && svc.wikiProblem(title).Some? && svc.wikiProblem(title).value != ""
              && var parts := svc.parseTitle(detail.value.contest, title);
                 svc.fetchAnswer(parts).Some? && RawTruthy(svc.fetchAnswer(parts).value)
    ensures p.Some? ==>
              var parts := svc.parseTitle(detail.value.contest, title);
              && p.value.contest == detail.value.contest
              && p.value.answerType == detail.value.answerType
              && p.value.metadata == parts
              && p.value.problemTitle == FormatTitle(parts)
              && p.value.answer == ConvertAnswer(svc.fetchAnswer(parts).value, detail.value.answerType)
              && p.value.difficulty == svc.estimateDifficulty(detail.value.contest, parts)
              && p.value.body == svc.render(svc.wikiProblem(title).value)
  {
    if detail.None? then None
    else
      var d := detail.value;
      var parts := svc.parseTitle(d.contest, title);
      var wiki := svc.wikiProblem(title);
      var answer := svc.fetchAnswer(parts);
      if wiki.None? || wiki.value == "" then None
      else if answer.None? || !RawTruthy(answer.value) then None
      else
        Some(Problem(d.contest, d.answerType, ConvertAnswer(answer.value, d.answerType),
                     svc.estimateDifficulty(d.contest, parts), parts, FormatTitle(parts),
                     svc.render(wiki.value)))
  }

  /** `details[i]`, undefined past the end. */
  function DetailAt(details: seq<Detail>, i: nat): Option<Detail> {
    if i < |details| then Some(details[i]) else None
  }

  /** `generateProblems` of core.js: one entry per drawn title, in drawn order,
      null where that title failed to resolve. */
  function GenerateProblems(g: GameSettings, pools: map<Contest, seq<Title>>, pick: (nat, nat) -> nat,
                            svc: Services): (r: Result<seq<Option<Problem>>, SelectError>)
    ensures Select(g, pools, pick).Err? <==> r.Err?
    ensures g.selection == [] ==> r == Err(NoSelection)
    ensures r.Ok? ==>
              var bs := Select(g, pools, pick).value;
              && |r.value| == |Drawn(bs)|
              && forall i :: 0 <= i < |r.value| ==>
                   r.value[i] == Resolve(Drawn(bs)[i], DetailAt(Details(bs), i), svc)
  {
    match Select(g, pools, pick)
    case Err(e) => Err(e)
    case Ok(bs) =>
      var drawn := Drawn(bs);
      var details := Details(bs);
      Ok(seq(|drawn|, i requires 0 <= i < |drawn| => Resolve(drawn[i], DetailAt(details, i), svc)))
  }

  /** With pools large enough, every resolved problem carries the contest and
      answer type of the contest its title was drawn from. */
  lemma GeneratedProblemsAreAligned(g: GameSettings, pools: map<Contest, seq<Title>>, pick: (nat, nat) -> nat,
                                    svc: Services)
    requires forall c :: c in g.contestData && c in pools ==> 0 <= g.contestData[c].problemCount <= |pools[c]|
    requires GenerateProblems(g, pools, pick, svc).Ok?
    ensures var bs := Select(g, pools, pick).value;
            var ps := GenerateProblems(g, pools, pick, svc).value;
            forall i :: 0 <= i < |ps| && ps[i].Some? ==>
              ps[i].value.contest == Origins(bs)[i] && ps[i].value.answerType == AnswerTypeOf(Origins(bs)[i])
  {
    var bs := Select(g, pools, pick).value;
    assert forall b :: b in bs ==> Full(b);
    DetailsAlign(bs);
  }

  // ---------------------------------------------------------------------------
  // core.ts: the older generator, keyed by `contestDetails`, without answers

  /** A problem as core.ts returns it: no answer and no contest. */
  datatype PlainProblem = PlainProblem(answerType: AnswerType, difficulty: real, problemTitle: string, body: string)

  /** The final map of core.ts for one title: null when the page fails or has
      no text; otherwise the detail entry at the same index is read, and a
      missing one throws (the whole generator rejects). */
  function ResolvePlain(title: Title, i: nat, detail: Option<Detail>, svc: Services): (r: Result<Option<PlainProblem>, SelectError>)
    ensures r.Err? <==> detail.None? && svc.wikiProblem(title).Some? && svc.wikiProblem(title).value != ""
    ensures r.Ok? && r.value.Some? ==> detail.Some?
    ensures r.Ok? && r.value.Some? && detail.Some? ==>
              var parts := svc.parseTitle(detail.value.contest, title);
              && r.value.value.answerType == detail.value.answerType
              && r.value.value.difficulty == svc.estimateDifficulty(detail.value.contest, parts)
              && r.value.value.problemTitle == FormatTitle(parts)
    ensures r.Ok? ==> (r.value.None? <==> svc.wikiProblem(title).None? || svc.wikiProblem(title).value == "")
  {
    var wiki := svc.wikiProblem(title);
    if wiki.None? || wiki.value == "" then Ok(None)
    else if detail.None? then Err(MissingDetail(i))
    else
      var d := detail.value;
      var parts := svc.parseTitle(d.contest, title);
      Ok(Some(PlainProblem(d.answerType, svc.estimateDifficulty(d.contest, parts), FormatTitle(parts),
                           svc.render(wiki.value))))
  }

  function ResolveAllPlain(drawn: seq<Title>, details: seq<Detail>, svc: Services, k: nat): (r: Result<seq<Option<PlainProblem>>, SelectError>)
    requires k <= |drawn|
    ensures r.Ok? ==> |r.value| == |drawn| - k
    ensures r.Ok? ==> forall i :: k <= i < |drawn| ==> ResolvePlain(drawn[i], i, DetailAt(details, i), svc) == Ok(r.value[i - k])
    decreases |drawn| - k
  {
    if k == |drawn| then Ok([])
    else
      match ResolvePlain(drawn[k], k, DetailAt(details, k), svc)
      case Err(e) => Err(e)
      case Ok(p) =>
        match ResolveAllPlain(drawn, details, svc, k + 1)
        case Err(e) => Err(e)
        case Ok(rest) => Ok([p] + rest)
  }

  /** `generateProblems` of core.ts: same selection (the settings field it reads
      is `contestDetails`, passed here as `g.contestData`), then one entry per
      drawn title with null in place of failures. */
  function GenerateProblemsPlain(g: GameSettings, pools: map<Contest, seq<Title>>, pick: (nat, nat) -> nat,
                                 svc: Services): (r: Result<seq<Option<PlainProblem>>, SelectError>)
    ensures Select(g, pools, pick).Err? ==> r.Err?
    ensures r.Ok? ==>
              var bs := Select(g, pools, pick).value;
              && |r.value| == |Drawn(bs)|
              && forall i :: 0 <= i < |r.value| ==>
                   (r.value[i].None? <==> svc.wikiProblem(Drawn(bs)[i]).None? || svc.wikiProblem(Drawn(bs)[i]).value == "")
  {
    match Select(g, pools, pick)
    case Err(e) => Err(e)
    case Ok(bs) => ResolveAllPlain(Drawn(bs), Details(bs), svc, 0)
  }

  /** Batches that draw no more titles than they push detail entries leave at
      least one detail entry per drawn title. */
  lemma {:induction false} DrawnFitsDetails(bs: seq<Batch>)
    requires forall b :: b in bs ==> 0 <= b.count && |b.titles| <= b.count
    ensures |Drawn(bs)| <= |Details(bs)|
  {
    if bs != [] {
      assert bs[0] in bs;
      assert forall b :: b in bs[1..] ==> b in bs;
      DrawnFitsDetails(bs[1..]);
    }
  }

  /** With no negative counts, selection draws no more titles than it pushes
      detail entries. */
  lemma SelectFromFits(choices: seq<Choice>, k: nat, contestData: map<Contest, ContestData>,
                       pools: map<Contest, seq<Title>>, pick: (nat, nat) -> nat)
    requires k <= |choices|
    requires forall c :: c in contestData ==> 0 <= contestData[c].problemCount
    requires SelectFrom(choices, k, contestData, pools, pick).Ok?
    ensures |Drawn(SelectFrom(choices, k, contestData, pools, pick).value)|
            <= |Details(SelectFrom(choices, k, contestData, pools, pick).value)|
  {
    DrawnFitsDetails(SelectFrom(choices, k, contestData, pools, pick).value);
  }

  lemma {:induction false} ResolveAllPlainOk(drawn: seq<Title>, details: seq<Detail>, svc: Services, k: nat)
    requires k <= |drawn| <= |details|
    ensures ResolveAllPlain(drawn, details, svc, k).Ok?
    decreases |drawn| - k
  {
    if k < |drawn| {
      ResolveAllPlainOk(drawn, details, svc, k + 1);
    }
  }

  /** With no negative counts, the core.ts generator only fails where selection
      fails: every drawn title finds its detail entry. */
  lemma PlainGenerationFailsOnlyInSelection(g: GameSettings, pools: map<Contest, seq<Title>>, pick: (nat, nat) -> nat,
                                            svc: Services)
    requires forall c :: c in g.contestData ==> 0 <= g.contestData[c].problemCount
    ensures GenerateProblemsPlain(g, pools, pick, svc).Ok? <==> Select(g, pools, pick).Ok?
  {
    if Select(g, pools, pick).Ok? {
      var bs := Select(g, pools, pick).value;
      SelectFromFits(g.selection, 0, g.contestData, pools, pick);
      ResolveAllPlainOk(Drawn(bs), Details(bs), svc, 0);
    }
  }

  /** Every detail entry names a contest of its batch. */
  lemma {:induction false} DetailsContests(bs: seq<Batch>, cd: map<Contest, ContestData>)
    requires forall b :: b in bs ==> b.contest in cd
    ensures forall i :: 0 <= i < |Details(bs)| ==> Details(bs)[i].contest in cd
  {
    if bs != [] {
      assert bs[0] in bs;
      DetailsContests(bs[1..], cd);
      var head := Repeat(Detail(bs[0].contest, AnswerTypeOf(bs[0].contest)), bs[0].count);
      forall i | 0 <= i < |Details(bs)| ensures Details(bs)[i].contest in cd {
        if i >= |head| {
          assert Details(bs)[i] == Details(bs[1..])[i - |head|];
        }
      }
    }
  }
}

=== FILE: settings.dfy ===
/** The `gameSettings/<room>` record: which contests a round draws from and
    how each contest is scored. */
module Settings {

  type Contest = string

  /** `contestData/<contest>`: how many problems to draw, and the points for a
      correct and for a blank answer (a blank may earn partial credit). */
  datatype ContestData = ContestData(problemCount: int, correctScore: real, blankScore: real)

  /** One `contestSelection` entry, in `Object.entries` order. */
  datatype Choice = Choice(contest: Contest, selected: bool)

  datatype GameSettings = GameSettings(selection: seq<Choice>, contestData: map<Contest, ContestData>)

  /** The settings a new room starts with: the four contests, all selected, one
      problem each; AMC problems score 6 correct and 1.5 blank, AIME problems
      10 correct and 0 blank. */
  function DefaultSettings(): (g: GameSettings)
    ensures |g.selection| == 4
    ensures forall i :: 0 <= i < |g.selection| ==>
              g.selection[i].selected && g.selection[i].contest in g.contestData
              && g.contestData[g.selection[i].contest].problemCount == 1
    ensures forall c :: c in g.contestData ==>
              g.contestData[c] == (if c == "aime" then ContestData(1, 10.0, 0.0) else ContestData(1, 6.0, 1.5))
  {
    var amc := ContestData(1, 6.0, 1.5);
    GameSettings(
      [Choice("amc8", true), Choice("amc10", true), Choice("amc12", true), Choice("aime", true)],
      map["amc8" := amc, "amc10" := amc, "amc12" := amc, "aime" := ContestData(1, 10.0, 0.0)])
  }
}

=== FILE: sorting.dfy ===
/** `Array.prototype.sort` with a comparator, as a stable insertion sort over
    the relation "comes no later than" (`compare(a, b) <= 0`). */
module Sorting {

  /** The comparator is consistent: every pair is ordered one way or the other,
      and the order is transitive. */
  ghost predicate TotalPreorder<T(!new)>(le: (T, T) -> bool) {
    && (forall a, b :: le(a, b) || le(b, a))
    && (forall a, b, c :: le(a, b) && le(b, c) ==> le(a, c))
  }

  predicate SortedBy<T>(s: seq<T>, le: (T, T) -> bool) {
    forall i, j :: 0 <= i < j < |s| ==> le(s[i], s[j])
  }

  /** Insert `x` before the first element it may precede. */
  function Insert<T>(x: T, s: seq<T>, le: (T, T) -> bool): seq<T> {
    if s == [] || le(x, s[0]) then [x] + s else [s[0]] + Insert(x, s[1..], le)
  }

  /** Insertion adds exactly `x`. */
  lemma {:induction false} InsertPermutes<T>(x: T, s: seq<T>, le: (T, T) -> bool)
    ensures multiset(Insert(x, s, le)) == multiset(s) + multiset{x}
  {
    if s != [] && !le(x, s[0]) {
      InsertPermutes(x, s[1..], le);
      assert s == [s[0]] + s[1..];
    }
  }

  /** Insertion into a sorted sequence keeps it sorted. */
  lemma {:induction false} InsertSorted<T(!new)>(x: T, s: seq<T>, le: (T, T) -> bool)
    requires TotalPreorder(le)
    requires SortedBy(s, le)
    ensures SortedBy(Insert(x, s, le), le)
  {
    if s == [] || le(x, s[0]) {
      var r := [x] + s;
      forall j | 0 < j < |r| ensures le(x, r[j]) {
        if j > 1 { assert le(s[0], s[j - 1]); }
      }
    } else {
      var rest := Insert(x, s[1..], le);
      InsertSorted(x, s[1..], le);
      HeadPrecedesInserted(x, s, le);
      var r := [s[0]] + rest;
      forall i, j | 0 <= i < j < |r| ensures le(r[i], r[j]) {
        if i > 0 { assert r[i] == rest[i - 1] && r[j] == rest[j - 1]; }
      }
    }
  }

  /** When `x` goes after the head of a sorted sequence, that head comes no later
      than anything in the insertion into the tail. */
  lemma HeadPrecedesInserted<T(!new)>(x: T, s: seq<T>, le: (T, T) -> bool)
    requires TotalPreorder(le)
    requires SortedBy(s, le)
    requires s != [] && !le(x, s[0])
    ensures forall j :: 0 <= j < |Insert(x, s[1..], le)| ==> le(s[0], Insert(x, s[1..], le)[j])
  {
    var rest := Insert(x, s[1..], le);
    InsertPermutes(x, s[1..], le);
    forall j | 0 <= j < |rest| ensures le(s[0], rest[j]) {
      assert rest[j] in multiset(rest);
      if rest[j] != x {
        assert rest[j] in multiset(s[1..]);
        var m :| 0 <= m < |s[1..]| && s[1..][m] == rest[j];
        assert le(s[0], s[m + 1]);
      }
    }
  }

  /** The sorted permutation of `s`; elements the comparator ties keep their order. */
  function Sort<T(!new)>(s: seq<T>, le: (T, T) -> bool): (r: seq<T>)
    requires TotalPreorder(le)
    ensures SortedBy(r, le)
    ensures multiset(r) == multiset(s)
    ensures |r| == |s|
  {
    if s == [] then []
    else
      var sorted := Sort(s[1..], le);
      InsertSorted(s[0], sorted, le);
      InsertPermutes(s[0], sorted, le);
      assert s == [s[0]] + s[1..];
      var r := Insert(s[0], sorted, le);
      assert |r| == |multiset(r)|;
      r
  }

  /** The elements of `s` the comparator ties with `c`, in their order in `s`. */
  function Ties<T>(s: seq<T>, c: T, le: (T, T) -> bool): seq<T> {
    if s == [] then []
    else (if le(s[0], c) && le(c, s[0]) then [s[0]] else []) + Ties(s[1..], c, le)
  }

  /** Two elements tied with `c` are ordered both ways. */
  ghost predicate TiesAgree<T(!new)>(c: T, le: (T, T) -> bool) {
    forall a, b :: le(a, c) && le(c, a) && le(c, b) ==> le(a, b)
  }

  /** `Ties` of a sequence with a known first element. */
  lemma TiesCons<T>(y: T, t: seq<T>, c: T, le: (T, T) -> bool)
    ensures Ties([y] + t, c, le) == (if le(y, c) && le(c, y) then [y] else []) + Ties(t, c, le)
  {
    assert ([y] + t)[1..] == t;
  }

  /** Insertion places `x` ahead of every element it ties with and leaves every
      other tie class in place. */
  lemma {:induction false} InsertKeepsTies<T(!new)>(x: T, s: seq<T>, c: T, le: (T, T) -> bool)
    requires TiesAgree(c, le)
    ensures Ties(Insert(x, s, le), c, le) ==
            (if le(x, c) && le(c, x) then [x] else []) + Ties(s, c, le)
  {
    if s == [] || le(x, s[0]) {
      TiesCons(x, s, c, le);
    } else {
      InsertKeepsTies(x, s[1..], c, le);
      TiesCons(s[0], Insert(x, s[1..], le), c, le);
      TiesCons(s[0], s[1..], c, le);
      assert s == [s[0]] + s[1..];
    }
  }

  /** `Sort` is stable: for every element `c`, the elements tied with `c` come
      out in the order they went in. */
  lemma {:induction false} SortIsStable<T(!new)>(s: seq<T>, c: T, le: (T, T) -> bool)
    requires TotalPreorder(le)
    ensures Ties(Sort(s, le), c, le) == Ties(s, c, le)
  {
    if s != [] {
      SortIsStable(s[1..], c, le);
      InsertKeepsTies(s[0], Sort(s[1..], le), c, le);
      TiesCons(s[0], s[1..], c, le);
      assert s == [s[0]] + s[1..];
    }
  }

  lemma MultisetTail<T>(s: seq<T>)
    requires s != []
    ensures multiset(s[1..]) == multiset(s) - multiset{s[0]}
  {
    assert s == [s[0]] + s[1..];
  }

  /** The first element of a sorted sequence comes no later than any element of it. */
  lemma SortedHead<T(!new)>(s: seq<T>, x: T, le: (T, T) -> bool)
    requires forall y :: le(y, y)
    requires SortedBy(s, le)
    requires x in multiset(s)
    ensures le(s[0], x)
  {
    var i :| 0 <= i < |s| && s[i] == x;
    if i > 0 { assert le(s[0], s[i]); }
  }

  lemma SortedTail<T>(s: seq<T>, le: (T, T) -> bool)
    requires s != [] && SortedBy(s, le)
    ensures SortedBy(s[1..], le)
  {
    forall i, j | 0 <= i < j < |s| - 1 ensures le(s[1..][i], s[1..][j]) {
      assert le(s[i + 1], s[j + 1]);
    }
  }

  /** Under a reflexive, antisymmetric order (no two distinct elements tie) the
      sorted arrangement of a multiset is unique. */
  lemma {:induction false} SortedUnique<T(!new)>(a: seq<T>, b: seq<T>, le: (T, T) -> bool)
    requires forall x :: le(x, x)
    requires forall x, y :: le(x, y) && le(y, x) ==> x == y
    requires SortedBy(a, le) && SortedBy(b, le)
    requires multiset(a) == multiset(b)
    ensures a == b
  {
    if a != [] {
      assert |a| == |multiset(a)| == |b|;
      SortedHead(b, a[0], le);
      SortedHead(a, b[0], le);
      assert a[0] == b[0];
      MultisetTail(a);
      MultisetTail(b);
      SortedTail(a, le);
      SortedTail(b, le);
      SortedUnique(a[1..], b[1..], le);
      assert a == [a[0]] + a[1..] && b == [b[0]] + b[1..];
    }
  }
}
